=== FILE: README.md ===
# Point-of-sale core, modelled in Dafny

This project models the core of a restaurant point-of-sale web application.
That core has two halves.

- **Server procedures.** These are the restaurant and order procedures.
  - The access gate `checkUserAccess`.
  - The restaurant procedures: list, fetch, create and partially update.
  - The order procedures: `addOrder` and `addOrderItem`.
  - The input schemas for restaurants and opening hours.
- **Client logic.** This is the pure logic of the browser components.
  - The order-taking screen: cart total, modifier toggling, confirming and removing cart lines, the location / location-info / items stages, the digit-only inputs, and the order it submits.
  - The ingredient and allergen tag inputs.
  - The dietary badges.
  - The sidebar's role filter and active-link highlight.
  - The restaurant card's opening-hours line.

The relational store is a value (`Store.Db`): row sequences in storage
order, plus the next value of each identity column. A server procedure is a
pure function from the store, the acting user, the input and a `DbFault`.
`DbFault` names which database statement, if any, throws. A procedure
answers an `Outcome`: the store it leaves behind and a `Result`.

A failing handler body is passed through the handlers' shared catch clause
(`Errors.Catch`), so a procedure answers either a value or a tRPC error.
That clause re-raises an already classified tRPC error and turns any other
failure into INTERNAL_SERVER_ERROR. Input that fails the procedure's zod
schema is answered with BAD_REQUEST (`Errors.InvalidInput`).

Modules, one per file:

| module | models |
|---|---|
| `Errors` | tRPC error codes, the catch clause, database faults |
| `Store` | rows and the store |
| `Access` | `checkUserAccess` |
| `Validation` | `HoursSchema`, `restaurantInputSchema` and its `.partial()` |
| `RestaurantRouter` | `getRestaurants`, `getRestaurantById`, `createRestaurant`, `updateRestaurant` |
| `OrderRouter` | `addOrder`, `addOrderItem` |
| `OrderTaker` | the order-taking screen |
| `TagList` | the ingredient and allergen inputs |
| `Dietary` | `getDietaryTags` |
| `Sidebar` | the navigation sidebar |
| `HoursDisplay` | `getTodaysHours` |
| `Text`, `Seqs` | string and sequence built-ins the components use: `trim`, `replace(/\D/g, "")`, number printing, `join`, `filter`, `splice` |

**`addOrder` is not atomic.** The order insert, the order-item insert and
the modifier-link insert are separate statements, not one transaction.
`OrderRouter.AddOrder` models the code:
- A fault in a later insert leaves the earlier rows in place.
- `OrderRouter.AddOrderKeepsOrderRowOnItemFault` states this.
- The ORM refuses an insert given an empty list of values, and throws before the statement runs. An order whose lines select no modifier therefore writes its order and item rows and then fails; `addOrderItem` likewise keeps the item row of an item without modifiers. Both are listed under Findings.

`createRestaurant`, by contrast, runs both of its
inserts in one transaction, and `RestaurantRouter.CreateRestaurant` leaves
the store unchanged on any failure.

## Model

| member | source | states |
|---|---|---|
| Errors.Reclassify | src/server/api/routers/order.ts:105-111 | an already classified tRPC error is re-raised unchanged; any other failure becomes INTERNAL_SERVER_ERROR; so a non-internal code always comes from a classified error |
| Errors.Catch | src/server/api/routers/order.ts:34-111 | the handler succeeds exactly when its body returns, with the body's value; a throw becomes the reclassified error |
| Errors.ReclassifyIdempotent | src/server/api/routers/restaurant.ts:101-107 | running the catch clause on its own output changes nothing |
| Access.FindMembership | src/server/api/util.ts:16-28 | the membership query finds nothing exactly when no row matches both the user and the restaurant, and otherwise the first matching row |
| Access.CheckUserAccess | src/server/api/util.ts:5-46 | no membership or a deactivated one gives FORBIDDEN "You don't have access to this restaurant"; an activated role outside the required roles gives FORBIDDEN "You don't have permission to perform this action"; otherwise the role, which is always one of the required roles; every rejection is FORBIDDEN |
| Access.KitchenRejectedByDefault | src/server/api/util.ts:8-43 | with the default required roles (owner, manager, server) an activated kitchen member is refused with the permission message |
| Access.OtherRowsIgnored | src/server/api/util.ts:22-28 | a row for another user or another restaurant, wherever it is stored, does not change what the membership query finds |
| Access.CheckIgnoresOtherRows | src/server/api/util.ts:16-46 | the same holds for the whole access decision |
| Access.FirstMembershipDecides | src/server/api/util.ts:28-37 | once a membership row is present, rows stored after it never change the access decision: `.limit(1)` consults only the first |
| Access.FirstMembershipFound | src/server/api/util.ts:16-28 | appending rows after an existing membership does not change the membership found |
| Validation.ValidateDay | src/server/api/zod-schemas.ts:5-14 | a day's hour ranges are accepted exactly when every range has hours 0-23 and minutes 0-59, are kept as given, and an absent day becomes the empty list |
| Validation.OvernightRangeAccepted | src/server/api/zod-schemas.ts:5-14 | a range closing before it opens (22:00 to 02:30) is accepted: the schema does not order open and close |
| Validation.ValidateWeek | src/server/api/zod-schemas.ts:29-47 | an absent week becomes seven closed days; a present one is accepted exactly when all seven days are, each day defaulted as above |
| Validation.ValidateRestaurant | src/server/api/zod-schemas.ts:16-48 | a restaurant is accepted exactly when: the name has 1-255 UTF-16 code units (a character outside the Basic Multilingual Plane counts two); the type has 1-100; the address is non-empty; the phone is ten digits; the email has 1-255; a given tax rate is non-negative; and the opening hours pass. The tax rate defaults to 0, and the other fields are kept as given |
| Validation.ValidatePatch | src/server/api/routers/restaurant.ts:163-169 | a partial update is accepted exactly when every supplied field passes its rule, lengths counted in UTF-16 code units; absent fields stay absent (no defaults are applied) |
| Text.Utf16Length | src/server/api/zod-schemas.ts:17-27 | a string's JavaScript length lies between its number of characters and twice that, equals it without characters outside the Basic Multilingual Plane, and doubles it when every character lies outside |
| Validation.EmojiNameTooLong | src/server/api/zod-schemas.ts:17-20 | a name of 128 emoji, 256 code units, is rejected by the 255 limit |
| Validation.ValidateWeekExact | src/server/api/zod-schemas.ts:29-47 | a validated week has every range in range, and a week with every range in range, resubmitted with all days present, validates to itself |
| Validation.SchemaRoundTrip | src/server/api/zod-schemas.ts:16-48 | a validated input, stored as a row, meets the schema; and a row meeting the schema, resubmitted, validates to its own fields |
| RestaurantRouter.ActivatedRole | src/server/api/routers/restaurant.ts:63-82 | the gate written out in `getRestaurantById`: a missing or deactivated membership is FORBIDDEN, an activated one yields its role |
| RestaurantRouter.ActivatedRoleIsCheckWithEveryRole | src/server/api/routers/restaurant.ts:63-82 | that gate is `checkUserAccess` with all four roles required, so kitchen staff pass it |
| RestaurantRouter.FindRestaurant | src/server/api/routers/restaurant.ts:84-95 | no row is found exactly when no restaurant has the id; a found row has the id |
| RestaurantRouter.GetRestaurantById | src/server/api/routers/restaurant.ts:53-108 | without an activated membership the answer is FORBIDDEN; with one and no storage fault, it is NOT_FOUND exactly when the restaurant is missing; a success answers a stored row with that id and the caller's activated role; INTERNAL_SERVER_ERROR only on a storage fault |
| RestaurantRouter.ApplyPatch | src/server/api/routers/restaurant.ts:204-210 | every supplied field replaces the row's, every other field and the id and creator are kept |
| RestaurantRouter.PatchLaws | src/server/api/routers/restaurant.ts:204-210 | an empty patch changes nothing, and applying a patch twice is applying it once |
| RestaurantRouter.UpdateRows | src/server/api/routers/restaurant.ts:204-210 | the update touches exactly the rows with the id |
| RestaurantRouter.UpdateRestaurant | src/server/api/routers/restaurant.ts:163-228 | invalid data is BAD_REQUEST; no activated membership is FORBIDDEN (access); a role other than owner or manager is FORBIDDEN (update permission); an empty patch from an owner or manager fails inside the try block and is answered INTERNAL_SERVER_ERROR "Failed to update restaurant"; on success the patch was non-empty and the store differs only by the patched rows of an existing restaurant; with an owner or manager, a non-empty patch and no fault it succeeds exactly when the restaurant exists; INTERNAL_SERVER_ERROR only on a fault or an empty patch; any failure leaves the store unchanged |
| RestaurantRouter.CreatePreservesSchema | src/server/api/routers/restaurant.ts:111-160 | when every stored restaurant meets the input schema, it still does after a creation |
| RestaurantRouter.PatchKeepsSchema | src/server/api/routers/restaurant.ts:163-210 | a patch the partial schema accepts, applied to a row meeting the full schema, leaves a row meeting it |
| RestaurantRouter.UpdatePreservesSchema | src/server/api/routers/restaurant.ts:163-228 | when every stored restaurant meets the input schema, it still does after an update |
| RestaurantRouter.UpdatePreservesWf | src/server/api/routers/restaurant.ts:204-210 | an update keeps the store's identity numbering invariant |
| RestaurantRouter.CreateRestaurant | src/server/api/routers/restaurant.ts:111-160 | invalid input is BAD_REQUEST; valid input without a fault succeeds; success appends exactly the restaurant row with the next id and an activated owner membership for the creator, and nothing else; any failure leaves the store unchanged and is reported as "Failed to create restaurant" |
| RestaurantRouter.CreatorIsActivatedOwner | src/server/api/routers/restaurant.ts:117-148 | after a creation the creator passes every access check that admits owners, and fetching the new restaurant answers it with role owner |
| RestaurantRouter.Joined | src/server/api/routers/restaurant.ts:16-28 | the join yields exactly the pairs of a caller's membership and the restaurant it names |
| RestaurantRouter.ListingsFor | src/server/api/routers/restaurant.ts:23-27 | one membership joins with every restaurant row of its restaurant id and no other |
| RestaurantRouter.NameLeTotal | src/server/api/routers/restaurant.ts:29 | the name order is total |
| RestaurantRouter.InsertByName | src/server/api/routers/restaurant.ts:29 | inserting into a name-ordered list keeps it ordered and adds exactly one entry |
| RestaurantRouter.SortByName | src/server/api/routers/restaurant.ts:29 | the result is ordered by name and is a permutation of the input |
| RestaurantRouter.GetRestaurants | src/server/api/routers/restaurant.ts:11-50 | success exactly without a storage fault; the list is ordered by name and is a permutation of the join of the caller's memberships (activated or not) with their restaurants, so it holds exactly those pairs with their multiplicities; every failure, classified or not, becomes "Failed to fetch restaurants" |
| OrderRouter.LocationRule | src/server/api/routers/order.ts:41-56 | a table order passes exactly with a truthy (present, non-zero) table number, a to-go order exactly with a non-empty name and phone; a failure is UNPROCESSABLE_CONTENT with the location's message |
| OrderRouter.ItemRows | src/server/api/routers/order.ts:74-85 | one order-item row per cart line, numbered consecutively, carrying the new order id and the line's fields |
| OrderRouter.LinksOfLines | src/server/api/routers/order.ts:93-102 | the link rows number exactly the selected modifiers of all lines |
| OrderRouter.LinksOfLinesMembers | src/server/api/routers/order.ts:93-102 | a link row is present exactly when its modifier is selected on the line whose item row it names |
| OrderRouter.LinksOfLinesAppend | src/server/api/routers/order.ts:93-102 | the links of two runs of lines are the first run's links followed by the second's, item numbers continuing |
| OrderRouter.LinksOfOneLine | src/server/api/routers/order.ts:96-99 | a single line's links are its modifier ids in order, all to its item |
| OrderRouter.AddOrder | src/server/api/routers/order.ts:31-112 | as written: a malformed phone is BAD_REQUEST; the access check runs before the location rule, and both before any insert; every classified rejection leaves the store unchanged; INTERNAL_SERVER_ERROR only on a storage fault or when no modifier is selected; with access, a passing location rule and no fault it succeeds exactly when some modifier is selected, appending the order row, its item rows and link rows and nothing else; with no modifier selected it answers "Failed to create order " with the ORM's empty-values error, keeping the order row |
| OrderRouter.AddOrderSkippingEmptyInserts | src/server/api/routers/order.ts:74-102 | corrected, with empty inserts left out: with access, a passing location rule and no fault the order is placed, whatever the modifiers; INTERNAL_SERVER_ERROR only on a storage fault |
| OrderRouter.SkippingAgreesWithModifiers | src/server/api/routers/order.ts:74-102 | once some modifier is selected, the corrected handler answers and writes exactly as the handler as written |
| OrderRouter.AddOrderWithoutModifiersFails | src/server/api/routers/order.ts:93-102 | as written, an admitted order of lines without modifiers keeps its order and item rows yet answers INTERNAL_SERVER_ERROR; corrected, it is placed with the next order id |
| OrderRouter.AddOrderShape | src/server/api/routers/order.ts:58-104 | a success adds one order, one item per line carrying the new order id, and one link per selected modifier to the item of its own line |
| OrderRouter.AddOrderKeepsOrderRowOnItemFault | src/server/api/routers/order.ts:58-91 | when the order-item insert fails, the order row already written stays and the error is "Failed to create order " followed by the cause |
| OrderRouter.AddOrderItem | src/server/api/routers/order.ts:114-154 | as written: access is checked first and a rejection writes nothing; without a fault an admitted caller succeeds exactly when some modifier id is given, appending the item row with the next id and one link per modifier id in order, and touching no order, restaurant or membership; with no modifier id the item row is written and the answer is INTERNAL_SERVER_ERROR; an unclassified failure is "Failed to create order" and comes from a fault or an empty modifier list |
| OrderRouter.AddOrderItemSkippingEmptyLinks | src/server/api/routers/order.ts:124-144 | corrected, with the empty link insert left out: without a fault an admitted caller succeeds, appending the item row and exactly its links; INTERNAL_SERVER_ERROR only on a fault |
| OrderRouter.AddOrderItemWithoutModifiersFails | src/server/api/routers/order.ts:139-144 | as written, an item without modifiers is stored yet answered with an error; corrected it is added; with some modifier the two agree |
| OrderRouter.AddOrderItemKeepsItemRowOnLinkFault | src/server/api/routers/order.ts:124-144 | when the link insert fails, the item row already written stays and no link is written |
| OrderRouter.AddOrderItemLinksNameNewItem | src/server/api/routers/order.ts:124-144 | on success the new link rows are exactly one per modifier id, in order, each naming the item row just written for the given order |
| Seqs.RemoveAll | src/app/_components/OrderTaker.tsx:116-122 | `filter(x => x !== v)` leaves no occurrence of the value, never lengthens the list, and changes nothing when the value is absent |
| Seqs.RemoveAllMultiset | src/app/_components/OrderTaker.tsx:118 | every occurrence of the value goes and every other entry keeps its multiplicity |
| Seqs.RemoveAllMembers | src/app/_components/OrderTaker.tsx:118 | an entry survives exactly when it was present and differs from the removed value |
| Seqs.RemoveAllDistinct | src/app/_components/OrderTaker.tsx:118 | removing keeps a duplicate-free list duplicate-free |
| Seqs.RemoveAllAppend | src/app/_components/OrderTaker.tsx:118 | removal distributes over concatenation, so the kept entries keep their order |
| Seqs.RemoveAllSingle | src/app/_components/OrderTaker.tsx:118 | removing a value that occurs once leaves exactly the entries before and after it |
| Seqs.SpliceStart | src/app/_components/OrderTaker.tsx:126 | the index `splice` starts at always lies within the list |
| Seqs.RemoveAt | src/app/_components/OrderTaker.tsx:124-128 | `splice(index, 1)`: an index in range removes that entry; an index past the end removes nothing; a negative index counts from the end, and one below the length removes the first entry |
| OrderTaker.Adjustment | src/app/_components/OrderTaker.tsx:85-86 | an id that is none of the item's modifiers contributes 0; whichever position holds the first modifier with the id, its adjustment is the answer |
| OrderTaker.SelectedAdjustments | src/app/_components/OrderTaker.tsx:84-87 | a selection of ids none of which is the item's modifier adds nothing |
| OrderTaker.LineTotal | src/app/_components/OrderTaker.tsx:82-88 | with distinct modifier ids and a duplicate-free selection, a line costs the item's price plus the adjustment of every listed modifier that is selected; with nothing selected, the price |
| OrderTaker.Total | src/app/_components/OrderTaker.tsx:79-92 | with no line below zero, the total is non-negative and at least every line's total |
| OrderTaker.TotalAppend | src/app/_components/OrderTaker.tsx:79-92 | the total of two carts put together is the sum of their totals |
| OrderTaker.SelectedAppend | src/app/_components/OrderTaker.tsx:84-87 | the modifier sum of two selections put together is the sum of their modifier sums |
| OrderTaker.UnknownModifierIgnored | src/app/_components/OrderTaker.tsx:85-86 | a selected id that is not one of the item's modifiers adds nothing, wherever it sits |
| OrderTaker.ListedCons | src/app/_components/OrderTaker.tsx:84-87 | with distinct modifier ids, the reference sum over one more selected id grows by that id's adjustment |
| OrderTaker.SelectedMatchesListed | src/app/_components/OrderTaker.tsx:84-87 | with distinct modifier ids and a duplicate-free selection, the sum over selected ids equals the reference sum over the item's modifiers that are selected |
| OrderTaker.ListedNoneSelected | src/app/_components/OrderTaker.tsx:84-87 | with nothing selected the reference sum is 0 |
| OrderTaker.WorkedLineTotal | src/app/_components/OrderTaker.tsx:79-92 | an item of 1200 cents with modifiers of +150 and -50 selected comes to 1300 cents |
| OrderTaker.ToggleModifier | src/app/_components/OrderTaker.tsx:116-122 | an unselected id is appended at the end; a selected id is removed with every repeat and the rest keep their order; so its membership flips, every other id's is kept, and a duplicate-free selection stays duplicate-free |
| OrderTaker.ToggleTwiceRestores | src/app/_components/OrderTaker.tsx:116-122 | toggling an unselected id twice restores the selection |
| OrderTaker.AddItemToOrder | src/app/_components/OrderTaker.tsx:94-98 | choosing an item starts it with no modifiers and no instructions and keeps the cart |
| OrderTaker.ConfirmItem | src/app/_components/OrderTaker.tsx:100-114 | without an item being configured nothing happens; otherwise the item with its instructions and selection becomes the last cart line and the item is reset |
| OrderTaker.CancelItem | src/app/_components/OrderTaker.tsx:359 | Cancel drops the item being configured and keeps the cart and its total; confirming afterwards does nothing |
| OrderTaker.ConfirmAddsLineTotal | src/app/_components/OrderTaker.tsx:100-114 | confirming raises the total by exactly the new line's total |
| OrderTaker.RemoveItem | src/app/_components/OrderTaker.tsx:124-128 | removing line i leaves the lines before and after it; an index past the end changes nothing |
| OrderTaker.RemoveSubtractsLineTotal | src/app/_components/OrderTaker.tsx:124-128 | removing line i lowers the total by exactly that line's total |
| OrderTaker.TableInput | src/app/_components/OrderTaker.tsx:253-255 | the table field holds only digits, and digit-only text is kept as typed |
| OrderTaker.PhoneInput | src/app/_components/OrderTaker.tsx:289-293 | the phone field holds the first at most ten of the typed digits |
| OrderTaker.PhoneInputIdempotent | src/app/_components/OrderTaker.tsx:289-293 | sanitising the shown phone again changes nothing |
| OrderTaker.PhoneInputTenDigits | src/app/_components/OrderTaker.tsx:289-293 | the field shows a valid ten-digit phone exactly when at least ten digits were typed |
| OrderTaker.PhoneKeystroke | src/app/_components/OrderTaker.tsx:289-293 | one more keystroke appends a digit while fewer than ten are shown and is otherwise dropped |
| OrderTaker.ChooseToGo | src/app/_components/OrderTaker.tsx:215-219 | the To Go tile chooses to-go, clears the table and moves to location info, keeping name and phone |
| OrderTaker.ChooseTable | src/app/_components/OrderTaker.tsx:225-230 | the Table tile chooses table, clears name and phone and moves to location info |
| OrderTaker.ContinueToItems | src/app/_components/OrderTaker.tsx:130-142 | Continue reaches the items stage exactly when the location info is complete (a table number; or a name and a ten-character phone), otherwise nothing changes |
| OrderTaker.BackTo | src/app/_components/OrderTaker.tsx:194-204 | Back goes from items to location info, from location info with a location to the first stage clearing the location, and otherwise leaves the screen |
| OrderTaker.BackAsWritten | src/app/_components/OrderTaker.tsx:202 | as written, leaving always goes to restaurant 1's new-order page |
| OrderTaker.Back | src/app/_components/OrderTaker.tsx:194-204 | corrected: leaving goes to the new-order page of the screen's own restaurant; the stage changes are those of the code |
| OrderTaker.BackLeavesForRestaurantOneAsWritten | src/app/_components/OrderTaker.tsx:202 | on restaurant 2's screen, Back from the first stage leaves for a page other than restaurant 2's new-order page |
| OrderTaker.BackLeavesForPlaceOrderLink | src/app/_components/OrderTaker.tsx:194-204 | corrected, Back leaves for the sidebar's "Place Order" link of the same restaurant |
| OrderTaker.Step | src/app/_components/OrderTaker.tsx:194-300 | the screen is left exactly by a Back that leaves; typing keeps the stage and the location; the items stage is entered only by Continue with complete location info |
| OrderTaker.InitialConsistent | src/app/_components/OrderTaker.tsx:42-49 | the initial screen satisfies the screen invariant |
| OrderTaker.StepKeepsConsistent | src/app/_components/OrderTaker.tsx:194-300 | every event the screen offers keeps the invariant: past the first stage a location is chosen; the items stage has complete location info; the table is digits; the phone is at most ten digits |
| Text.DigitValue | src/app/_components/OrderTaker.tsx:162 | a digit's value is below ten and prints back as that digit |
| Text.ParseDigits | src/app/_components/OrderTaker.tsx:162 | `parseInt` of a digit string is 0 exactly when every digit is 0, and its last decimal digit is the string's last digit; its value is pinned down by Text.ParseDigitsRoundTrip and Text.NatToStringRoundTrip |
| Text.ParseDigitsRoundTrip | src/app/_components/OrderTaker.tsx:162 | printing the parsed value of a digit string without a leading zero gives the string back |
| OrderTaker.LineInputs | src/app/_components/OrderTaker.tsx:177-183 | one order input line per cart line, with the item id, instructions and selected modifier ids |
| OrderTaker.SubmitOrder | src/app/_components/OrderTaker.tsx:153-189 | corrected, given the caller's staff id: the screen sends an order exactly for a table order with a table number or a to-go order with a ten-digit phone; a table order carries the parsed number and no name or phone, a to-go order the name and phone and no number |
| OrderTaker.DetailsStaffId | src/app/_components/OrderTaker.tsx:158 | the staff id read off the restaurant details is absent: the `getRestaurantById` answer is the `restaurants` row (src/server/db/schema.ts:116-130 has no staff id column) and the role |
| OrderTaker.SubmitOrderAsWritten | src/app/_components/OrderTaker.tsx:153-168 | as written, whatever the screen holds, nothing is sent |
| OrderTaker.SchemaCheckedOrder | src/app/_components/OrderTaker.tsx:153-168 | without a staff id the screen's own schema check throws and nothing is sent; with one, the order is that of the corrected screen |
| OrderTaker.NoOrderSentAsWritten | src/app/_components/OrderTaker.tsx:153-168 | as written, reading the staff id off the restaurant details, no screen ever sends an order; given a staff id, every reachable items-stage screen sends one |
| OrderTaker.SubmittedOrderMeetsServerRules | src/app/_components/OrderTaker.tsx:153-184 | corrected, given a staff id: from every reachable items-stage screen, whatever the cart (the Place Order button, OrderTaker.tsx line 476, appears only for a non-empty one), an order is sent, it passes the server's input schema, and it passes the server's location rule unless the table number reads as 0 |
| OrderTaker.ZeroTableRejectedByServer | src/app/_components/OrderTaker.tsx:161-162 | a table number "0" gets past the screen and is refused by the server as missing |
| TagList.AddTag | src/app/_components/SectionWithItemForm.tsx:255-263 | the trimmed text becomes the last tag and the box is cleared exactly when it is non-empty and not yet listed; otherwise nothing changes (the allergen input, lines 327-335, and the stand-alone ingredient input, lines 503-508, are the same code) |
| TagList.RemoveTag | src/app/_components/SectionWithItemForm.tsx:274-278 | removing drops every entry equal to the tag and keeps every other tag; the box is untouched (also lines 346-348 and 517-519) |
| TagList.AddKeepsWellFormed | src/app/_components/SectionWithItemForm.tsx:255-263 | adding keeps the list duplicate-free, with every tag non-empty and trimmed |
| TagList.RemoveKeepsWellFormed | src/app/_components/SectionWithItemForm.tsx:274-278 | removing keeps that invariant |
| TagList.AddThenRemoveRestores | src/app/_components/SectionWithItemForm.tsx:255-278 | adding a tag and removing it gives back the list |
| TagList.AddRetypedIsNoOp | src/app/_components/SectionWithItemForm.tsx:255-263 | re-entering a tag just added changes nothing |
| Dietary.Tags | src/app/_components/ItemList.tsx:14-21 | a badge is shown exactly when its flag is set; at most four badges, no repeats, only the four known ones |
| Dietary.FlagsOf | src/app/_components/ItemList.tsx:14-21 | reading flags back off badges: a flag is set exactly when its badge is listed |
| Dietary.FlagsOfTags | src/app/_components/ItemList.tsx:14-21 | the badges determine the flags |
| Dietary.TagsInjective | src/app/_components/ItemList.tsx:14-21 | different flags always show different badges |
| Dietary.TagsInCanonicalOrder | src/app/_components/ItemList.tsx:14-21 | badges appear in the order V, VG, GF, DF |
| Sidebar.NavigationItems | src/app/_components/RestaurantSidebar.tsx:48-96 | three groups (General, Operations, Management) holding five links under the restaurant's base path, each for owners, managers and servers |
| Sidebar.VisibleItems | src/app/_components/RestaurantSidebar.tsx:114-117 | a link is shown exactly when the caller's role is among its roles |
| Sidebar.VisibleItemsAppend | src/app/_components/RestaurantSidebar.tsx:114-117 | the filter keeps the shown links in their listed order |
| Sidebar.VisibleGroups | src/app/_components/RestaurantSidebar.tsx:108-117 | every group and its heading stay, in order, each with its filtered links |
| Sidebar.VisibleItemsOfStaffLinks | src/app/_components/RestaurantSidebar.tsx:114-117 | links for owners, managers and servers are all shown to any of those roles |
| Sidebar.StaffSeeEveryLink | src/app/_components/RestaurantSidebar.tsx:50-117 | owners, managers and servers see every link |
| Sidebar.KitchenSeesNoLink | src/app/_components/RestaurantSidebar.tsx:50-117 | kitchen staff see the headings and no link |
| Sidebar.NoneVisible | src/app/_components/RestaurantSidebar.tsx:114-117 | links not listing the role are all hidden from it |
| Sidebar.SuffixesDistinct | src/app/_components/RestaurantSidebar.tsx:56-91 | the five links' sub-paths differ |
| Sidebar.IsActive | src/app/_components/RestaurantSidebar.tsx:44-46 | a link is highlighted exactly when the path has the link's length and agrees with it character by character; a longer path beginning with the link's address does not highlight it |
| Sidebar.AtMostOneActive | src/app/_components/RestaurantSidebar.tsx:44-46 | whatever the current path, at most one link is highlighted |
| Sidebar.DashboardNotActiveOnSubpage | src/app/_components/RestaurantSidebar.tsx:44-46 | exact matching: the dashboard link is not highlighted on the pages below it |
| HoursDisplay.IntToString | src/app/_components/RestaurantCard.tsx:36 | a non-negative number prints as its decimal digits |
| HoursDisplay.RenderRangeAsWritten | src/app/_components/RestaurantCard.tsx:36 | as written, a range prints as the intended print of the same range closing when it opens |
| HoursDisplay.RenderDayAsWritten | src/app/_components/RestaurantCard.tsx:30-38 | as written, a day prints as the intended print of its ranges each closing when it opens, and "Closed" exactly when there are no ranges |
| HoursDisplay.ClosingTimeIgnoredAsWritten | src/app/_components/RestaurantCard.tsx:30-38 | as written, days agreeing on their opening times print the same, whatever their closing times |
| HoursDisplay.NineToHalfPastFiveAsWritten | src/app/_components/RestaurantCard.tsx:33-38 | as written, a day open 9:00-17:30 prints "9:0-9:0", the same as a day open 9:00-12:00 |
| HoursDisplay.Time | src/app/_components/RestaurantCard.tsx:36 | a time of non-negative numbers prints as the hour's digits, ':', the minute's digits |
| HoursDisplay.TimeShape | src/app/_components/RestaurantCard.tsx:36 | a printed time starts with a digit and holds neither '-' nor ',' |
| HoursDisplay.TimeInjective | src/app/_components/RestaurantCard.tsx:36 | a printed time of non-negative numbers determines the hour and the minute |
| HoursDisplay.RenderRange | src/app/_components/RestaurantCard.tsx:36 | corrected, a printed range opens with the opening time and a '-', and ends with the closing time |
| HoursDisplay.RenderedRanges | src/app/_components/RestaurantCard.tsx:33-37 | corrected, one printed range per hour range, in order |
| HoursDisplay.RenderDay | src/app/_components/RestaurantCard.tsx:30-38 | corrected, a day prints "Closed" exactly when it has no ranges, a single range as that range, and otherwise a line starting with the first range |
| HoursDisplay.TimeLeads | src/app/_components/RestaurantCard.tsx:36 | a printed time starts with a digit, or '-' for a negative hour |
| HoursDisplay.CorrectedNineToHalfPastFive | src/app/_components/RestaurantCard.tsx:36 | corrected, that day prints "9:0-17:30" |
| HoursDisplay.ClosingTimeShown | src/app/_components/RestaurantCard.tsx:36 | corrected, two valid ranges that open together but close at different times print differently |
| HoursDisplay.RenderRangeInjective | src/app/_components/RestaurantCard.tsx:36 | corrected, a printed valid range determines the range |
| HoursDisplay.RenderDayInjective | src/app/_components/RestaurantCard.tsx:30-38 | corrected, a printed day of valid ranges determines the day: different schedules never share a line, and "Closed" means no ranges |
| HoursDisplay.ShortDayInjective | src/app/_components/RestaurantCard.tsx:30-38 | a printed day of at most one valid range determines the day |
| HoursDisplay.SingleRangeInjective | src/app/_components/RestaurantCard.tsx:36 | two days of one valid range each that print the same are the same day |
| HoursDisplay.RangeHasNoComma | src/app/_components/RestaurantCard.tsx:36 | a printed valid range holds no ',' and starts with a digit |
| HoursDisplay.OneAgainstMany | src/app/_components/RestaurantCard.tsx:33-38 | one range and several never print the same |
| HoursDisplay.PeelLastRange | src/app/_components/RestaurantCard.tsx:33-38 | two equal prints of several ranges end in the same range and agree before the last separator |
| Text.KeepDigits | src/app/_components/OrderTaker.tsx:254 | `replace(/\D/g, "")` leaves only digits, never lengthens, and keeps digit-only text |
| Text.LeadingSpaceIsMaximal | src/app/_components/SectionWithItemForm.tsx:257-260 | the leading run `trim()` drops is all white space and stops at the first character that is not |
| Text.TrailingSpaceIsMaximal | src/app/_components/SectionWithItemForm.tsx:257-260 | the trailing run `trim()` drops is all white space and stops at the last character that is not |
| Text.Trim | src/app/_components/SectionWithItemForm.tsx:257-260 | `trim()` yields a trimmed slice of the text, having dropped only white space at either end |
| Text.TrimIdempotent | src/app/_components/SectionWithItemForm.tsx:257-260 | trimming twice is trimming once |
| Text.NatToString | src/app/_components/RestaurantCard.tsx:36 | a number prints as at least one digit, a single digit exactly below ten; that the digits spell the number is Text.NatToStringRoundTrip |
| Text.NatToStringRoundTrip | src/app/_components/RestaurantCard.tsx:36 | parsing the print of a number gives the number back, so `${n}` writes n in decimal |
| Text.NatToStringNoLeadingZero | src/app/_components/RestaurantCard.tsx:36 | numbers are printed without zero padding: the print starts with '0' exactly for 0 |
| Text.NatToStringInjective | src/app/_components/RestaurantCard.tsx:36 | different numbers print differently |
| Text.Join | src/app/_components/RestaurantCard.tsx:38 | joining nothing gives "", joining one part gives that part |
| Text.JoinSnoc | src/app/_components/RestaurantCard.tsx:38 | joining one more part appends the separator and the part |

## Left out

- Storage, the ORM and the tRPC plumbing are not executed. A store is a value, and the nondeterministic failure of a statement is the `DbFault` parameter.
- The `console` calls are not modelled.
- The session's user id is a parameter.
- `Access.FindMembership`: the membership queries carry `.limit(1)` without an ORDER BY. The model takes the first matching row in storage order, which is one of the rows the database may return.
- `RestaurantRouter.SortByName`: names are compared by code point, not by the database's collation, and ties keep membership order.
- `OrderRouter.AddOrder`: the ORM's refusal of an empty list of values is modelled with the error text of the ORM version this code targets; the ORM itself is not part of this model.
- `OrderRouter.LocationRule`: the table number is an integer. The schema's `z.number().optional()` also admits a fractional table number, which is not modelled.
- `Text.ParseDigits`: `parseInt` answers a double, so a digit string above 2^53 reads back rounded (for example "99999999999999999" as 100000000000000000). The model's value is exact.
- `OrderRouter.AddOrder`: the message appends the cause's string form. The model appends the cause as given. JavaScript would print an `Error` as `Error: <message>`.
- The order procedures cannot see whether the returned id lists are short. The checks at order.ts lines 70-72 and 89-91 cover cases that only a fault can produce, so they are folded into the fault parameter.
- `getOrders` (order.ts lines 156-228) is left out. It is a read-only nested query, and the core is the write path.
- `Validation.ValidateRestaurant`: the email is checked for length and non-emptiness only. zod's e-mail format rule is not modelled.
- `Validation.ValidatePatch`: a supplied email is likewise checked for length only, without zod's e-mail format rule.
- `RestaurantRouter.UpdateRestaurant`: the empty patch fails with the ORM's "No values to set"; the ORM itself is not part of this model.
- `Validation.ValidateDay`: hour and minute fields are integers. The schema's `z.number()` also admits fractional values, which are not modelled.
- The tax rate is a mathematical real, not a floating-point number.
- `OrderTaker.Total` is the cart total in integer cents. The division by 100 and `toFixed(2)` are floating-point display and are not modelled.
- `OrderTaker.SubmitOrder`: the staff id is a parameter. The screen reads `restaurantStaffId` from the `getRestaurantById` answer, and that answer carries no such field in this revision of the procedure. As written, the screen's schema check therefore rejects every submission and no order is ever sent; this is listed under Findings, and `OrderTaker.SubmitOrder` describes the screen with the staff id supplied.
- `OrderTaker.SubmitOrder`: after a successful submission the screen navigates to `/dashboard/1/orders/view` (OrderTaker.tsx line 147). That navigation has the same hard-coded restaurant as Back and is not modelled.
- Toasts and alerts are not modelled.
- `HoursDisplay`: which day is today comes from the clock and the `en-US` weekday name, so the day's ranges are a parameter.
- React state batching, rendering and styling are not modelled.
- The menu procedures are not part of this model, and neither are the form components that only pass values through.
- Identity values consumed by a rolled-back transaction are not modelled. The model leaves the store, counters included, unchanged on a failed `createRestaurant`, whereas a database sequence may skip the consumed values.

## Findings

| source | as written | input that shows it | evidently intended | confidence | as-written member | corrected member |
|---|---|---|---|---|---|---|
| src/app/_components/RestaurantCard.tsx:36 | each range prints its opening hour and minute twice, `openHour:openMinute-openHour:openMinute` | a day with one range 9:00-17:30 prints "9:0-9:0", the same as 9:00-12:00 | `openHour:openMinute-closeHour:closeMinute`, printing "9:0-17:30" | not executed | HoursDisplay.NineToHalfPastFiveAsWritten | HoursDisplay.ClosingTimeShown |
| src/server/api/routers/order.ts:93-102 | the link insert runs even when no line selects a modifier, and the ORM throws on an empty list of values | an admitted table order with one line and no modifiers: its order and item rows are written, and the answer is INTERNAL_SERVER_ERROR "Failed to create order Error: values() must be called with at least one value" | the link insert is skipped when there are no links, and the order is placed | not executed | OrderRouter.AddOrderWithoutModifiersFails | OrderRouter.AddOrderSkippingEmptyInserts |
| src/server/api/routers/order.ts:139-144 | `addOrderItem` runs the link insert even for an empty `modifierIds` | an admitted item with `modifierIds: []`: the item row is written, and the answer is INTERNAL_SERVER_ERROR "Failed to create order" | the item is added without links | not executed | OrderRouter.AddOrderItemWithoutModifiersFails | OrderRouter.AddOrderItemSkippingEmptyLinks |
| src/app/_components/OrderTaker.tsx:158 | `restaurantStaffId` is read from the `getRestaurantById` answer, which has no such field, so it is `undefined` and `orderSchema.parse` (line 168) throws | any items-stage screen, for example a table order for table 5 with one cart line: the alert "Failed to create order. Please check your inputs." appears and `addOrder` is never called | the caller's membership id is sent and the order is submitted | not executed | OrderTaker.NoOrderSentAsWritten | OrderTaker.SubmitOrder |
| src/app/_components/OrderTaker.tsx:202 | Back from the first stage always navigates to `/dashboard/1/orders/new` | on restaurant 2's order screen, Back from the location stage goes to restaurant 1's page | the new-order page of the screen's own restaurant, `/dashboard/<id>/orders/new` | not executed | OrderTaker.BackLeavesForRestaurantOneAsWritten | OrderTaker.Back |

=== FILE: access.dfy ===
/** The access gate `checkUserAccess`: look up the acting user's staff
    membership for a restaurant, reject a missing or deactivated membership,
    then reject a role outside the required set. */
module Access {
  import opened Errors
  import opened Store

  const NoAccessMessage: string := "You don't have access to this restaurant"
  const NoPermissionMessage: string := "You don't have permission to perform this action"

  const NoAccess: TrpcError := TrpcError(Forbidden, NoAccessMessage)
  const NoPermission: TrpcError := TrpcError(Forbidden, NoPermissionMessage)

  /** The required roles when a caller names none. */
  const DefaultRequiredRoles: seq<Role> := [Owner, Manager, Server]

  predicate Matches(row: StaffRow, user: UserId, restaurantId: int) {
    row.userId == user && row.restaurantId == restaurantId
  }

  predicate NoMembership(staff: seq<StaffRow>, user: UserId, restaurantId: int) {
    forall i :: 0 <= i < |staff| ==> !Matches(staff[i], user, restaurantId)
  }

  /** Row `i` is the first membership of `user` in `restaurantId`. */
  predicate IsFirstMatch(staff: seq<StaffRow>, user: UserId, restaurantId: int, i: int) {
    && 0 <= i < |staff|
    && Matches(staff[i], user, restaurantId)
    && forall j :: 0 <= j < i ==> !Matches(staff[j], user, restaurantId)
  }

  /** The membership query: rows matching both the user and the restaurant,
      `.limit(1)`. The query has no ORDER BY; the model takes the first
      matching row in storage order. */
  function FindMembership(staff: seq<StaffRow>, user: UserId, restaurantId: int): (r: Option<StaffRow>)
    ensures r.None? <==> NoMembership(staff, user, restaurantId)
    ensures forall i :: IsFirstMatch(staff, user, restaurantId, i) ==> r == Some(staff[i])
  {
    if staff == [] then None
    else if Matches(staff[0], user, restaurantId) then Some(staff[0])
    else
      var r := FindMembership(staff[1..], user, restaurantId);
      assert forall i :: IsFirstMatch(staff, user, restaurantId, i) ==> IsFirstMatch(staff[1..], user, restaurantId, i - 1);
      r
  }

  /** `checkUserAccess(ctx, restaurantId, requiredRoles)`: the role of the
      acting user, or FORBIDDEN with the "access" message for a missing or
      deactivated membership and with the "permission" message for an
      activated membership whose role is not required. */
  function CheckUserAccess(staff: seq<StaffRow>, user: UserId, restaurantId: int, requiredRoles: seq<Role>): (r: Result<Role>)
    ensures NoMembership(staff, user, restaurantId) ==> r == Err(NoAccess)
    ensures forall i :: IsFirstMatch(staff, user, restaurantId, i) ==>
      && (!staff[i].activated ==> r == Err(NoAccess))
      && (staff[i].activated && staff[i].role !in requiredRoles ==> r == Err(NoPermission))
      && (staff[i].activated && staff[i].role in requiredRoles ==> r == Ok(staff[i].role))
    ensures r.Ok? ==> r.value in requiredRoles
    ensures r.Err? ==> r.error.code == Forbidden
  {
    match FindMembership(staff, user, restaurantId)
    case None => Err(NoAccess)
    case Some(row) =>
      if !row.activated then Err(NoAccess)
      else if row.role !in requiredRoles then Err(NoPermission)
      else Ok(row.role)
  }

  /** With the default required roles an activated kitchen member is
      rejected with the "permission" message. */
  lemma KitchenRejectedByDefault(staff: seq<StaffRow>, user: UserId, restaurantId: int, i: int)
    requires IsFirstMatch(staff, user, restaurantId, i)
    requires staff[i].activated && staff[i].role == Kitchen
    ensures CheckUserAccess(staff, user, restaurantId, DefaultRequiredRoles) == Err(NoPermission)
  {
  }

  /** A row that is not the user's membership in that restaurant, wherever
      it is stored, never changes the outcome. */
  lemma {:induction false} OtherRowsIgnored(front: seq<StaffRow>, row: StaffRow, back: seq<StaffRow>,
                                            user: UserId, restaurantId: int)
    requires !Matches(row, user, restaurantId)
    ensures FindMembership(front + [row] + back, user, restaurantId) == FindMembership(front + back, user, restaurantId)
  {
    if front == [] {
      assert front + [row] + back == [row] + back;
      assert ([row] + back)[1..] == back;
      assert front + back == back;
    } else {
      assert (front + [row] + back)[1..] == front[1..] + [row] + back;
      assert (front + back)[1..] == front[1..] + back;
      OtherRowsIgnored(front[1..], row, back, user, restaurantId);
    }
  }

  lemma CheckIgnoresOtherRows(front: seq<StaffRow>, row: StaffRow, back: seq<StaffRow>,
                              user: UserId, restaurantId: int, requiredRoles: seq<Role>)
    requires !Matches(row, user, restaurantId)
    ensures CheckUserAccess(front + [row] + back, user, restaurantId, requiredRoles)
         == CheckUserAccess(front + back, user, restaurantId, requiredRoles)
  {
    OtherRowsIgnored(front, row, back, user, restaurantId);
  }

  /** Once a membership row exists, rows stored after it are never
      consulted: only the first one decides. */
  lemma {:induction false} FirstMembershipDecides(staff: seq<StaffRow>, later: seq<StaffRow>,
                                                  user: UserId, restaurantId: int, requiredRoles: seq<Role>)
    requires !NoMembership(staff, user, restaurantId)
    ensures CheckUserAccess(staff + later, user, restaurantId, requiredRoles)
         == CheckUserAccess(staff, user, restaurantId, requiredRoles)
  {
    FirstMembershipFound(staff, later, user, restaurantId);
  }

  lemma {:induction false} FirstMembershipFound(staff: seq<StaffRow>, later: seq<StaffRow>,
                                                user: UserId, restaurantId: int)
    requires !NoMembership(staff, user, restaurantId)
    ensures FindMembership(staff + later, user, restaurantId) == FindMembership(staff, user, restaurantId)
  {
    if !Matches(staff[0], user, restaurantId) {
      assert (staff + later)[1..] == staff[1..] + later;
      assert !NoMembership(staff[1..], user, restaurantId) by {
        var i :| 0 <= i < |staff| && Matches(staff[i], user, restaurantId);
        assert staff[1..][i - 1] == staff[i];
      }
      FirstMembershipFound(staff[1..], later, user, restaurantId);
    }
  }
}

=== FILE: dietary.dfy ===
/** The dietary badges of a menu item: one short tag per set flag, in the
    fixed order vegetarian, vegan, gluten-free, dairy-free. */
module Dietary {
  import opened Seqs

  datatype DietaryFlags = DietaryFlags(vegetarian: bool, vegan: bool, glutenFree: bool, dairyFree: bool)

  /** The four badges in the order they are shown. */
  const Canonical: seq<string> := ["V", "VG", "GF", "DF"]

  /** Whether the flag the i-th canonical badge stands for is set. */
  function FlagAt(f: DietaryFlags, i: nat): bool
    requires i < 4
  {
    [f.vegetarian, f.vegan, f.glutenFree, f.dairyFree][i]
  }

  /** `getDietaryTags`: the badges of the set flags, in canonical order. */
  function Tags(f: DietaryFlags): (r: seq<string>)
    ensures forall i :: 0 <= i < 4 ==> (Canonical[i] in r <==> FlagAt(f, i))
    ensures forall t :: t in r ==> t in Canonical
    ensures |r| <= 4 && Distinct(r)
  {
    (if f.vegetarian then ["V"] else [])
    + (if f.vegan then ["VG"] else [])
    + (if f.glutenFree then ["GF"] else [])
    + (if f.dairyFree then ["DF"] else [])
  }

  /** Reading the flags back off a badge list. */
  function FlagsOf(tags: seq<string>): (f: DietaryFlags)
    ensures forall i :: 0 <= i < 4 ==> (FlagAt(f, i) <==> Canonical[i] in tags)
  {
    DietaryFlags("V" in tags, "VG" in tags, "GF" in tags, "DF" in tags)
  }

  /** The badges determine the flags: nothing is lost in `Tags`. */
  lemma FlagsOfTags(f: DietaryFlags)
    ensures FlagsOf(Tags(f)) == f
  {
    var r := Tags(f);
    assert FlagAt(f, 0) == ("V" in r) && FlagAt(f, 1) == ("VG" in r);
    assert FlagAt(f, 2) == ("GF" in r) && FlagAt(f, 3) == ("DF" in r);
  }

  /** Hence different flags always show different badges. */
  lemma TagsInjective(f: DietaryFlags, g: DietaryFlags)
    requires Tags(f) == Tags(g)
    ensures f == g
  {
    FlagsOfTags(f);
    FlagsOfTags(g);
  }

  /** The badges appear in canonical order: a badge shown after another
      comes later in the canonical list. */
  lemma TagsInCanonicalOrder(f: DietaryFlags, i: int, j: int)
    requires 0 <= i < j < |Tags(f)|
    ensures exists p, q :: 0 <= p < q < 4 && Canonical[p] == Tags(f)[i] && Canonical[q] == Tags(f)[j]
  {
    var r := Tags(f);
    var a := if f.vegetarian then ["V"] else [];
    var b := if f.vegan then ["VG"] else [];
    var c := if f.glutenFree then ["GF"] else [];
    var d := if f.dairyFree then ["DF"] else [];
    var rank := map["V" := 0, "VG" := 1, "GF" := 2, "DF" := 3];
    assert r == a + b + c + d;
    assert forall k :: 0 <= k < |r| ==> r[k] in rank && Canonical[rank[r[k]]] == r[k];
    assert rank[r[i]] < rank[r[j]];
    var p, q := rank[r[i]], rank[r[j]];
    assert Canonical[p] == r[i] && Canonical[q] == r[j];
  }
}

=== FILE: errors.dfy ===
/** Error classification shared by the server handlers: the tRPC error
    codes they raise, the failures a handler body can throw, and the catch
    clause that re-raises classified errors unchanged and flattens every
    other failure to INTERNAL_SERVER_ERROR. */
module Errors {

  /** An optional field (`.optional()` in an input schema, a nullable column). */
  datatype Option<+T> = None | Some(value: T)

  /** The tRPC codes raised. `BadRequest` is what input-schema validation
      raises before a handler body starts. */
  datatype Code = BadRequest | Forbidden | NotFound | UnprocessableContent | InternalServerError

  datatype TrpcError = TrpcError(code: Code, message: string)

  /** What a procedure answers when its input schema rejects the input;
      the message text of the schema library is not modelled. */
  const InvalidInput: TrpcError := TrpcError(BadRequest, "Invalid input")

  /** What a procedure answers its caller. */
  datatype Result<+T> = Ok(value: T) | Err(error: TrpcError) {
    predicate IsFailure() {
      Err?
    }

    function PropagateFailure<U>(): Result<U>
      requires Err?
    {
      Err(error)
    }

    function Extract(): T
      requires Ok?
    {
      value
    }
  }

  /** What a handler body throws: an already classified `TRPCError`, or any
      other failure (a storage error, a `throw new Error(...)`). */
  datatype Fault = Classified(error: TrpcError) | Unclassified(cause: string)

  /** Storage faults are not deterministic, so a handler takes them as a
      parameter: `FailsAt(k, cause)` makes the k-th database statement the
      handler issues (counting from 0) throw `cause`. */
  datatype DbFault = NoFault | FailsAt(step: nat, cause: string)

  predicate FailsAtStep(fault: DbFault, step: nat) {
    fault.FailsAt? && fault.step == step
  }

  /** The handlers' catch clause: `if (e instanceof TRPCError) throw e;`,
      otherwise a new INTERNAL_SERVER_ERROR whose message is `message`,
      followed by the cause when `withCause` is set. */
  function Reclassify(fault: Fault, message: string, withCause: bool): (e: TrpcError)
    ensures fault.Classified? ==> e == fault.error
    ensures fault.Unclassified? ==> e.code == InternalServerError
    ensures e.code != InternalServerError ==> fault == Classified(e)
  {
    match fault
    case Classified(err) => err
    case Unclassified(cause) =>
      TrpcError(InternalServerError, if withCause then message + cause else message)
  }

  /** How a handler body ended: it returned a value or threw. */
  datatype Attempt<+T> = Returned(value: T) | Threw(fault: Fault)

  /** A handler body wrapped in the catch clause. */
  function Catch<T>(body: Attempt<T>, message: string, withCause: bool): (r: Result<T>)
    ensures body.Returned? <==> r.Ok?
    ensures body.Returned? ==> r.value == body.value
    ensures body.Threw? ==> r.error == Reclassify(body.fault, message, withCause)
  {
    match body
    case Returned(v) => Ok(v)
    case Threw(f) => Err(Reclassify(f, message, withCause))
  }

  /** Running the catch clause again on what it already re-raised changes
      nothing: a classified error is never reclassified. */
  lemma ReclassifyIdempotent(fault: Fault, message: string, withCause: bool,
                             message': string, withCause': bool)
    ensures Reclassify(Classified(Reclassify(fault, message, withCause)), message', withCause')
         == Reclassify(fault, message, withCause)
  {
  }
}

=== FILE: hours_display.dfy ===
/** The restaurant card's line of today's opening hours: "Closed" for a day
    without ranges, otherwise the ranges as `hour:minute-hour:minute`
    separated by ", ". Numbers are printed as JavaScript prints integers:
    no padding, a leading '-' when negative. */
module HoursDisplay {
  import opened Store
  import Text
  import Validation

  function IntToString(i: int): (r: string)
    ensures i >= 0 ==> r == Text.NatToString(i)
  {
    if i < 0 then "-" + Text.NatToString(-i) else Text.NatToString(i)
  }

  /** A time of day as the card prints it: `${hour}:${minute}`. */
  function Time(hour: int, minute: int): (r: string)
    ensures hour >= 0 && minute >= 0 ==> r == Text.NatToString(hour) + [':'] + Text.NatToString(minute)
  {
    IntToString(hour) + [':'] + IntToString(minute)
  }

  /** A printed time starts with a digit, or with '-' for a negative hour. */
  lemma TimeLeads(hour: int, minute: int)
    ensures |Time(hour, minute)| > 0
    ensures Time(hour, minute)[0] == '-' || Text.IsDigit(Time(hour, minute)[0])
  {
    var h := IntToString(hour);
    assert Time(hour, minute)[0] == h[0];
    if hour >= 0 {
      assert Text.IsDigit(Text.NatToString(hour)[0]);
    }
  }

  const Closed: string := "Closed"
  const RangeSeparator: string := ", "

  // ------------------------------------------------------------ as written

  /** One range the way the card prints it: the opening time twice, which
      is the intended print of a range that closes when it opens. */
  function RenderRangeAsWritten(range: HourRange): (s: string)
    ensures s == RenderRange(OpeningOnly(range))
  {
    Time(range.openHour, range.openMinute) + ['-'] + Time(range.openHour, range.openMinute)
  }

  /** The range with its closing time replaced by its opening time. */
  function OpeningOnly(range: HourRange): HourRange {
    range.(closeHour := range.openHour, closeMinute := range.openMinute)
  }

  function OpeningsOnly(ranges: seq<HourRange>): (r: seq<HourRange>)
    ensures |r| == |ranges|
    ensures forall i :: 0 <= i < |ranges| ==> r[i] == OpeningOnly(ranges[i])
  {
    seq(|ranges|, i requires 0 <= i < |ranges| => OpeningOnly(ranges[i]))
  }

  /** The day as the card prints it: the intended line of the same ranges
      closing when they open; "Closed" exactly for a day without ranges. */
  function RenderDayAsWritten(ranges: seq<HourRange>): (s: string)
    ensures s == RenderDay(OpeningsOnly(ranges))
    ensures s == Closed <==> ranges == []
  {
    if |ranges| == 0 then Closed
    else
      var parts := seq(|ranges|, i requires 0 <= i < |ranges| => RenderRangeAsWritten(ranges[i]));
      assert parts == RenderedRanges(OpeningsOnly(ranges));
      Text.Join(parts, RangeSeparator)
  }

  predicate SameOpening(a: seq<HourRange>, b: seq<HourRange>) {
    |a| == |b| && forall i :: 0 <= i < |a| ==>
      a[i].openHour == b[i].openHour && a[i].openMinute == b[i].openMinute
  }

  /** As written, the closing times never reach the card: days that agree
      on their opening times print the same. */
  lemma ClosingTimeIgnoredAsWritten(a: seq<HourRange>, b: seq<HourRange>)
    requires SameOpening(a, b)
    ensures RenderDayAsWritten(a) == RenderDayAsWritten(b)
  {
    var pa := seq(|a|, i requires 0 <= i < |a| => RenderRangeAsWritten(a[i]));
    var pb := seq(|b|, i requires 0 <= i < |b| => RenderRangeAsWritten(b[i]));
    assert pa == pb by {
      forall i | 0 <= i < |a| ensures pa[i] == pb[i] {
        assert RenderRangeAsWritten(a[i]) == RenderRangeAsWritten(b[i]);
      }
    }
  }

  /** A day open 9:00 to 17:30 is shown as "9:0-9:0", the same as a day
      open 9:00 to 12:00. */
  lemma NineToHalfPastFiveAsWritten()
    ensures RenderDayAsWritten([HourRange(9, 0, 17, 30)]) == "9:0-9:0"
    ensures RenderDayAsWritten([HourRange(9, 0, 17, 30)]) == RenderDayAsWritten([HourRange(9, 0, 12, 0)])
  {
    assert Text.NatToString(9) == "9";
    assert Text.NatToString(0) == "0";
    ClosingTimeIgnoredAsWritten([HourRange(9, 0, 17, 30)], [HourRange(9, 0, 12, 0)]);
  }

  // ------------------------------------------------------------- corrected

  /** One range as evidently intended: the line opens with the opening
      time and ends with the closing time. */
  function RenderRange(range: HourRange): (s: string)
    ensures var open, close := Time(range.openHour, range.openMinute), Time(range.closeHour, range.closeMinute);
      && |s| > |open| + |close|
      && s[..|open|] == open && s[|open|] == '-' && s[|s| - |close|..] == close
  {
    Time(range.openHour, range.openMinute) + ['-'] + Time(range.closeHour, range.closeMinute)
  }

  function RenderedRanges(ranges: seq<HourRange>): (r: seq<string>)
    ensures |r| == |ranges|
    ensures forall i :: 0 <= i < |ranges| ==> r[i] == RenderRange(ranges[i])
  {
    seq(|ranges|, i requires 0 <= i < |ranges| => RenderRange(ranges[i]))
  }

  /** `getTodaysHours` for the day's ranges, printing each range's own
      closing time: "Closed" exactly for a day without ranges, a single
      range alone, and otherwise the line starts with the first range. */
  function RenderDay(ranges: seq<HourRange>): (s: string)
    ensures s == Closed <==> ranges == []
    ensures |ranges| == 1 ==> s == RenderRange(ranges[0])
    ensures ranges != [] ==> |s| >= |RenderRange(ranges[0])| && s[..|RenderRange(ranges[0])|] == RenderRange(ranges[0])
  {
    if |ranges| == 0 then Closed
    else
      var parts := RenderedRanges(ranges);
      JoinStartsWithFirst(parts, RangeSeparator);
      TimeLeads(ranges[0].openHour, ranges[0].openMinute);
      assert Text.Join(parts, RangeSeparator)[0] == parts[0][0];
      Text.Join(parts, RangeSeparator)
  }

  lemma CorrectedNineToHalfPastFive()
    ensures RenderDay([HourRange(9, 0, 17, 30)]) == "9:0-17:30"
  {
    assert Text.NatToString(9) == "9";
    assert Text.NatToString(0) == "0";
    assert Text.NatToString(17) == Text.NatToString(1) + "7";
    assert Text.NatToString(30) == Text.NatToString(3) + "0";
  }

  // --------------------------------------------- splitting at a separator

  /** Where the first `c` is in `s`, or `|s|` when there is none. */
  function IndexOf(s: string, c: char): nat {
    if s == [] then 0 else if s[0] == c then 0 else 1 + IndexOf(s[1..], c)
  }

  lemma {:induction false} IndexOfSplit(a: string, c: char, b: string)
    requires c !in a
    ensures IndexOf(a + [c] + b, c) == |a|
  {
    if a == [] {
      assert (a + [c] + b)[0] == c;
    } else {
      assert (a + [c] + b)[0] == a[0];
      assert (a + [c] + b)[1..] == a[1..] + [c] + b;
      IndexOfSplit(a[1..], c, b);
    }
  }

  /** A string splits at most one way around the first occurrence of `c`. */
  lemma SplitAtFirst(a: string, c: char, b: string, a': string, b': string)
    requires c !in a && c !in a'
    requires a + [c] + b == a' + [c] + b'
    ensures a == a' && b == b'
  {
    IndexOfSplit(a, c, b);
    IndexOfSplit(a', c, b');
    var s := a + [c] + b;
    assert a == s[..|a|] && a' == s[..|a'|];
    assert b == s[|a| + 1..] && b' == s[|a'| + 1..];
  }

  /** How many characters follow the last `c` in `s`, or `|s|` when there
      is none. */
  function TailLength(s: string, c: char): nat {
    if s == [] then 0 else if s[|s| - 1] == c then 0 else 1 + TailLength(s[..|s| - 1], c)
  }

  lemma {:induction false} TailLengthSplit(a: string, c: char, b: string)
    requires c !in b
    ensures TailLength(a + [c] + b, c) == |b|
  {
    var s := a + [c] + b;
    if b == [] {
      assert s[|s| - 1] == c;
    } else {
      assert s[|s| - 1] == b[|b| - 1];
      assert s[..|s| - 1] == a + [c] + b[..|b| - 1];
      TailLengthSplit(a, c, b[..|b| - 1]);
    }
  }

  /** A string splits at most one way around the last occurrence of `c`. */
  lemma SplitAtLast(a: string, c: char, b: string, a': string, b': string)
    requires c !in b && c !in b'
    requires a + [c] + b == a' + [c] + b'
    ensures a == a' && b == b'
  {
    TailLengthSplit(a, c, b);
    TailLengthSplit(a', c, b');
    var s := a + [c] + b;
    assert a == s[..|s| - |b| - 1] && a' == s[..|s| - |b'| - 1];
    assert b == s[|s| - |b|..] && b' == s[|s| - |b'|..];
  }

  // ------------------------------------------------ the corrected line is
  //                                                   unambiguous

  predicate Punctuation(c: char) {
    c == ':' || c == '-' || c == ','
  }

  lemma DigitsLackPunctuation(s: string, c: char)
    requires Text.AllDigits(s) && Punctuation(c)
    ensures c !in s
  {
  }

  /** A printed time of day starts with a digit and holds no '-' or ','. */
  lemma TimeShape(hour: int, minute: int)
    requires hour >= 0 && minute >= 0
    ensures '-' !in Time(hour, minute) && ',' !in Time(hour, minute)
    ensures |Time(hour, minute)| > 0 && Text.IsDigit(Time(hour, minute)[0])
  {
    var h, m := Text.NatToString(hour), Text.NatToString(minute);
    DigitsLackPunctuation(h, '-');
    DigitsLackPunctuation(h, ',');
    DigitsLackPunctuation(m, '-');
    DigitsLackPunctuation(m, ',');
    assert Time(hour, minute)[0] == h[0];
  }

  /** For non-negative numbers the printed time determines the time. */
  lemma TimeInjective(hour: int, minute: int, hour': int, minute': int)
    requires hour >= 0 && minute >= 0 && hour' >= 0 && minute' >= 0
    requires Time(hour, minute) == Time(hour', minute')
    ensures hour == hour' && minute == minute'
  {
    var h, m := Text.NatToString(hour), Text.NatToString(minute);
    var h', m' := Text.NatToString(hour'), Text.NatToString(minute');
    DigitsLackPunctuation(h, ':');
    DigitsLackPunctuation(h', ':');
    SplitAtFirst(h, ':', m, h', m');
    Text.NatToStringInjective(hour, hour');
    Text.NatToStringInjective(minute, minute');
  }

  /** For validated ranges the printed range determines the range. */
  lemma RenderRangeInjective(r: HourRange, q: HourRange)
    requires Validation.ValidHourRange(r) && Validation.ValidHourRange(q)
    ensures RenderRange(r) == RenderRange(q) ==> r == q
  {
    if RenderRange(r) == RenderRange(q) {
      TimeShape(r.openHour, r.openMinute);
      TimeShape(q.openHour, q.openMinute);
      SplitAtFirst(Time(r.openHour, r.openMinute), '-', Time(r.closeHour, r.closeMinute),
                   Time(q.openHour, q.openMinute), Time(q.closeHour, q.closeMinute));
      TimeInjective(r.openHour, r.openMinute, q.openHour, q.openMinute);
      TimeInjective(r.closeHour, r.closeMinute, q.closeHour, q.closeMinute);
    }
  }

  /** Corrected, the closing time reaches the card: two valid ranges that
      open together but close at different times print differently. */
  lemma ClosingTimeShown(r: HourRange, q: HourRange)
    requires Validation.ValidHourRange(r) && Validation.ValidHourRange(q)
    requires r.openHour == q.openHour && r.openMinute == q.openMinute
    requires r.closeHour != q.closeHour || r.closeMinute != q.closeMinute
    ensures RenderRange(r) != RenderRange(q)
  {
    RenderRangeInjective(r, q);
  }

  lemma RangeHasNoComma(r: HourRange)
    requires Validation.ValidHourRange(r)
    ensures ',' !in RenderRange(r)
    ensures |RenderRange(r)| > 0 && Text.IsDigit(RenderRange(r)[0])
  {
    TimeShape(r.openHour, r.openMinute);
    TimeShape(r.closeHour, r.closeMinute);
    assert RenderRange(r)[0] == Time(r.openHour, r.openMinute)[0];
  }

  predicate AllValid(ranges: seq<HourRange>) {
    forall i :: 0 <= i < |ranges| ==> Validation.ValidHourRange(ranges[i])
  }

  lemma {:induction false} JoinStartsWithFirst(parts: seq<string>, sep: string)
    requires parts != []
    ensures |Text.Join(parts, sep)| >= |parts[0]| && Text.Join(parts, sep)[..|parts[0]|] == parts[0]
  {
    if |parts| > 1 {
      var init := parts[..|parts| - 1];
      JoinStartsWithFirst(init, sep);
      Text.JoinSnoc(init, parts[|parts| - 1], sep);
      assert init + [parts[|parts| - 1]] == parts;
    }
  }

  lemma {:induction false} JoinOfRangesLast(ranges: seq<HourRange>)
    requires |ranges| > 1
    ensures Text.Join(RenderedRanges(ranges), RangeSeparator)
         == Text.Join(RenderedRanges(ranges[..|ranges| - 1]), RangeSeparator) + [','] + (" " + RenderRange(ranges[|ranges| - 1]))
  {
    var parts := RenderedRanges(ranges);
    var init := RenderedRanges(ranges[..|ranges| - 1]);
    RenderedRangesPrefix(ranges);
    JoinLast(parts, RangeSeparator);
    SeparatorRegroup(Text.Join(init, RangeSeparator), RenderRange(ranges[|ranges| - 1]));
  }

  lemma RenderedRangesPrefix(ranges: seq<HourRange>)
    requires ranges != []
    ensures RenderedRanges(ranges)[..|ranges| - 1] == RenderedRanges(ranges[..|ranges| - 1])
  {
  }

  lemma JoinLast(parts: seq<string>, sep: string)
    requires |parts| > 1
    ensures Text.Join(parts, sep) == Text.Join(parts[..|parts| - 1], sep) + sep + parts[|parts| - 1]
  {
  }

  lemma SeparatorRegroup(x: string, y: string)
    ensures x + RangeSeparator + y == x + [','] + (" " + y)
  {
    var l, r := x + RangeSeparator + y, x + [','] + (" " + y);
    assert |l| == |r|;
    forall k | 0 <= k < |l| ensures l[k] == r[k] {
      if k < |x| {
      } else if k == |x| {
      } else if k == |x| + 1 {
      } else {
        assert l[k] == y[k - |x| - 2];
      }
    }
  }

  /** With validated ranges, different days print differently: no two
      schedules share a line, and "Closed" means no ranges. */
  lemma {:induction false} RenderDayInjective(a: seq<HourRange>, b: seq<HourRange>)
    requires AllValid(a) && AllValid(b)
    requires RenderDay(a) == RenderDay(b)
    ensures a == b
  {
    if |a| > 1 && |b| > 1 {
      PeelLastRange(a, b);
      RenderDayInjective(a[..|a| - 1], b[..|b| - 1]);
    } else {
      ShortDayInjective(a, b);
    }
  }

  /** The base cases: a line of at most one range has one reading. */
  lemma ShortDayInjective(a: seq<HourRange>, b: seq<HourRange>)
    requires AllValid(a) && AllValid(b)
    requires |a| <= 1 || |b| <= 1
    requires RenderDay(a) == RenderDay(b)
    ensures a == b
  {
    if a == [] || b == [] {
      ClosedOnlyForEmpty(a, b);
    } else if |a| == 1 && |b| == 1 {
      SingleRangeInjective(a, b);
    } else {
      OneAgainstMany(a, b);
    }
  }

  lemma ClosedOnlyForEmpty(a: seq<HourRange>, b: seq<HourRange>)
    requires a == [] || b == []
    requires RenderDay(a) == RenderDay(b)
    ensures a == b
  {
  }

  lemma SingleRangeInjective(a: seq<HourRange>, b: seq<HourRange>)
    requires AllValid(a) && AllValid(b) && |a| == 1 && |b| == 1
    requires RenderDay(a) == RenderDay(b)
    ensures a == b
  {
    RenderRangeInjective(a[0], b[0]);
  }

  lemma AllValidPrefix(a: seq<HourRange>)
    requires AllValid(a) && a != []
    ensures AllValid(a[..|a| - 1])
  {
  }

  lemma Snoc(a: seq<HourRange>)
    requires a != []
    ensures a == a[..|a| - 1] + [a[|a| - 1]]
  {
  }

  /** Two lines of several ranges that print the same end in the same
      range, and print the same before the last separator. */
  lemma PeelLastRange(a: seq<HourRange>, b: seq<HourRange>)
    requires AllValid(a) && AllValid(b) && |a| > 1 && |b| > 1
    requires RenderDay(a) == RenderDay(b)
    ensures a[|a| - 1] == b[|b| - 1]
    ensures RenderDay(a[..|a| - 1]) == RenderDay(b[..|b| - 1])
    ensures AllValid(a[..|a| - 1]) && AllValid(b[..|b| - 1])
    ensures a == a[..|a| - 1] + [a[|a| - 1]] && b == b[..|b| - 1] + [b[|b| - 1]]
  {
    RangeHasNoComma(a[|a| - 1]);
    RangeHasNoComma(b[|b| - 1]);
    JoinOfRangesLast(a);
    JoinOfRangesLast(b);
    var la, lb := RenderRange(a[|a| - 1]), RenderRange(b[|b| - 1]);
    assert ',' !in " " + la && ',' !in " " + lb;
    SplitAtLast(Text.Join(RenderedRanges(a[..|a| - 1]), RangeSeparator), ',', " " + la,
                Text.Join(RenderedRanges(b[..|b| - 1]), RangeSeparator), " " + lb);
    assert la == (" " + la)[1..] && lb == (" " + lb)[1..];
    RenderRangeInjective(a[|a| - 1], b[|b| - 1]);
    AllValidPrefix(a);
    AllValidPrefix(b);
    Snoc(a);
    Snoc(b);
  }

  /** A single range and several ranges never print the same: only the
      latter contain a comma. */
  lemma OneAgainstMany(a: seq<HourRange>, b: seq<HourRange>)
    requires AllValid(a) && AllValid(b) && a != [] && b != []
    requires |a| == 1 || |b| == 1
    requires |a| > 1 || |b| > 1
    ensures RenderDay(a) != RenderDay(b)
  {
    var one, many := if |a| == 1 then a else b, if |a| == 1 then b else a;
    RangeHasNoComma(one[0]);
    JoinOfRangesLast(many);
    var s := RenderDay(many);
    var k := |Text.Join(RenderedRanges(many[..|many| - 1]), RangeSeparator)|;
    assert s[k] == ',';
    assert RenderDay(one) == RenderRange(one[0]);
  }
}

=== FILE: order_router.dfy ===
/** Order placement: `addOrder` gates on the caller's role, checks the
    location-specific fields, then writes one order row, one order-item row
    per cart line and one link row per selected modifier; `addOrderItem`
    adds a single item with its links to an existing order. */
module OrderRouter {
  import opened Errors
  import opened Store
  import opened Access
  import Text

  /** One cart line of an `addOrder` input. */
  datatype LineInput = LineInput(
    restaurantId: int, menuItemId: int, restaurantStaffId: int,
    specialInstructions: Option<string>, modifierIds: seq<int>)

  datatype OrderInput = OrderInput(
    location: Location, tableNumber: Option<int>, phone: Option<string>,
    name: Option<string>, restaurantId: int, restaurantStaffId: int,
    orderItems: seq<LineInput>)

  /** The input of `addOrderItem`. */
  datatype OrderItemInput = OrderItemInput(
    restaurantId: int, menuItemId: int, restaurantStaffId: int, orderId: int,
    specialInstructions: Option<string>, modifierIds: seq<int>)

  const OrderRoles: seq<Role> := [Owner, Manager, Server]

  const TableNumberRequired: TrpcError :=
    TrpcError(UnprocessableContent, "if location table, must have table number")
  const NameAndPhoneRequired: TrpcError :=
    TrpcError(UnprocessableContent, "if location to_go, must have name and phone")

  /** The input schema: a present phone is ten digits. */
  predicate ValidOrderInput(input: OrderInput) {
    input.phone.Some? ==> Text.IsTenDigitPhone(input.phone.value)
  }

  /** JavaScript truthiness of an optional number and an optional string. */
  predicate TruthyNumber(n: Option<int>) { n.Some? && n.value != 0 }
  predicate TruthyString(s: Option<string>) { s.Some? && s.value != "" }

  /** The `switch (input.location)` rule: `None` when it passes. */
  function LocationRule(input: OrderInput): (r: Option<TrpcError>)
    ensures r.None? <==>
      (input.location == Table ==> TruthyNumber(input.tableNumber)) &&
      (input.location == ToGo ==> TruthyString(input.name) && TruthyString(input.phone))
    ensures r.Some? ==> r.value.code == UnprocessableContent
    ensures r.Some? ==> r.value == (if input.location == Table then TableNumberRequired else NameAndPhoneRequired)
  {
    match input.location
    case Table => if TruthyNumber(input.tableNumber) then None else Some(TableNumberRequired)
    case ToGo => if TruthyString(input.name) && TruthyString(input.phone) then None else Some(NameAndPhoneRequired)
  }

  /** The order-item rows of the cart lines, numbered from `firstId`. */
  function ItemRows(lines: seq<LineInput>, orderId: int, firstId: int): (r: seq<OrderItemRow>)
    ensures |r| == |lines|
    ensures forall i :: 0 <= i < |lines| ==>
      r[i] == OrderItemRow(firstId + i, lines[i].restaurantId, lines[i].menuItemId,
                           lines[i].restaurantStaffId, orderId, lines[i].specialInstructions)
  {
    seq(|lines|, i requires 0 <= i < |lines| =>
      OrderItemRow(firstId + i, lines[i].restaurantId, lines[i].menuItemId,
                   lines[i].restaurantStaffId, orderId, lines[i].specialInstructions))
  }

  /** One link row per modifier id, in order, all to the same item. */
  function Links(modifierIds: seq<int>, orderItemId: int): (r: seq<ModifierLink>)
    ensures |r| == |modifierIds|
    ensures forall k :: 0 <= k < |r| ==> r[k] == ModifierLink(orderItemId, modifierIds[k])
  {
    seq(|modifierIds|, k requires 0 <= k < |modifierIds| => ModifierLink(orderItemId, modifierIds[k]))
  }

  /** The number of selected modifiers over all lines. */
  function ModifierCount(lines: seq<LineInput>): nat {
    if lines == [] then 0 else |lines[0].modifierIds| + ModifierCount(lines[1..])
  }

  /** The flattened link rows of all lines: line i links to item `firstId + i`. */
  function LinksOfLines(lines: seq<LineInput>, firstId: int): (r: seq<ModifierLink>)
    ensures |r| == ModifierCount(lines)
  {
    if lines == [] then []
    else Links(lines[0].modifierIds, firstId) + LinksOfLines(lines[1..], firstId + 1)
  }

  /** A link row is produced exactly for a modifier id selected on a line,
      pointing at that line's item. */
  lemma {:induction false} LinksOfLinesMembers(lines: seq<LineInput>, firstId: int, o: int, m: int)
    ensures ModifierLink(o, m) in LinksOfLines(lines, firstId) <==>
      exists i :: 0 <= i < |lines| && o == firstId + i && m in lines[i].modifierIds
  {
    if lines != [] {
      var head := Links(lines[0].modifierIds, firstId);
      assert ModifierLink(o, m) in head <==> o == firstId && m in lines[0].modifierIds by {
        if o == firstId && m in lines[0].modifierIds {
          var k :| 0 <= k < |lines[0].modifierIds| && lines[0].modifierIds[k] == m;
          assert head[k] == ModifierLink(o, m);
        }
      }
      LinksOfLinesMembers(lines[1..], firstId + 1, o, m);
      assert forall i :: 1 <= i < |lines| ==> lines[1..][i - 1] == lines[i];
      if exists i :: 0 <= i < |lines| && o == firstId + i && m in lines[i].modifierIds {
        var i :| 0 <= i < |lines| && o == firstId + i && m in lines[i].modifierIds;
        if i > 0 {
          assert 0 <= i - 1 < |lines[1..]| && o == firstId + 1 + (i - 1) && m in lines[1..][i - 1].modifierIds;
        }
      }
    }
  }

  /** Link rows appear in input order: those of earlier lines first. */
  lemma {:induction false} LinksOfLinesAppend(a: seq<LineInput>, b: seq<LineInput>, firstId: int)
    ensures LinksOfLines(a + b, firstId) == LinksOfLines(a, firstId) + LinksOfLines(b, firstId + |a|)
  {
    if a == [] {
      assert a + b == b;
    } else {
      assert (a + b)[0] == a[0];
      assert (a + b)[1..] == a[1..] + b;
      LinksOfLinesAppend(a[1..], b, firstId + 1);
    }
  }

  /** A single line's links are its modifier ids in order, all to its item. */
  lemma LinksOfOneLine(line: LineInput, firstId: int)
    ensures LinksOfLines([line], firstId) == Links(line.modifierIds, firstId)
  {
    assert [line][1..] == [];
  }

  function OrderRowOf(input: OrderInput, id: int): OrderRow {
    OrderRow(id, input.location, input.tableNumber, input.phone, input.name,
             input.restaurantId, input.restaurantStaffId)
  }

  /** What the ORM throws, before any statement runs, when an insert is
      given an empty list of values (its string form). */
  const EmptyValues := "Error: values() must be called with at least one value"

  /** The handler body. Statement 0 is the membership read, 1 the order
      insert, 2 the order-item insert, 3 the link insert. The inserts are
      not wrapped in a transaction, so a failure in a later insert leaves
      the rows of the earlier ones in place. As written (`skipEmpty` false)
      an insert of no rows throws; with `skipEmpty` it is left out. */
  function AddOrderBody(db: Db, user: UserId, input: OrderInput, fault: DbFault, skipEmpty: bool): (Db, Attempt<int>) {
    if FailsAtStep(fault, 0) then (db, Threw(Unclassified(fault.cause)))
    else match CheckUserAccess(db.staff, user, input.restaurantId, OrderRoles)
      case Err(e) => (db, Threw(Classified(e)))
      case Ok(_) =>
        match LocationRule(input)
        case Some(e) => (db, Threw(Classified(e)))
        case None =>
          if FailsAtStep(fault, 1) then (db, Threw(Unclassified(fault.cause)))
          else
            var orderId := db.nextOrderId;
            var db1 := db.(orders := db.orders + [OrderRowOf(input, orderId)], nextOrderId := orderId + 1);
            if input.orderItems == [] && !skipEmpty then (db1, Threw(Unclassified(EmptyValues)))
            else if input.orderItems != [] && FailsAtStep(fault, 2) then (db1, Threw(Unclassified(fault.cause)))
            else
              var firstId := db.nextOrderItemId;
              var db2 := db1.(orderItems := db.orderItems + ItemRows(input.orderItems, orderId, firstId),
                              nextOrderItemId := firstId + |input.orderItems|);
              var links := LinksOfLines(input.orderItems, firstId);
              if links == [] && !skipEmpty then (db2, Threw(Unclassified(EmptyValues)))
              else if links != [] && FailsAtStep(fault, 3) then (db2, Threw(Unclassified(fault.cause)))
              else (db2.(modifierLinks := db.modifierLinks + links), Returned(orderId))
  }

  /** `addOrder` as written. */
  function AddOrder(db: Db, user: UserId, input: OrderInput, fault: DbFault): (out: Outcome<int>)
    ensures !ValidOrderInput(input) ==> out == Outcome(db, Err(InvalidInput))
    // the access check runs first, and a rejection writes nothing
    ensures ValidOrderInput(input) && !FailsAtStep(fault, 0) &&
            CheckUserAccess(db.staff, user, input.restaurantId, OrderRoles).Err? ==>
      out == Outcome(db, CheckUserAccess(db.staff, user, input.restaurantId, OrderRoles).PropagateFailure())
    // then the location rule, still before any insert
    ensures ValidOrderInput(input) && !FailsAtStep(fault, 0) &&
            CheckUserAccess(db.staff, user, input.restaurantId, OrderRoles).Ok? && LocationRule(input).Some? ==>
      out == Outcome(db, Err(LocationRule(input).value))
    // every classified rejection leaves the store unchanged
    ensures out.result.Err? && out.result.error.code != InternalServerError ==> out.db == db
    ensures out.result.Err? && out.result.error.code == InternalServerError ==>
      fault.FailsAt? || ModifierCount(input.orderItems) == 0
    ensures ValidOrderInput(input) && fault == NoFault &&
            CheckUserAccess(db.staff, user, input.restaurantId, OrderRoles).Ok? && LocationRule(input).None? ==>
      (out.result.Ok? <==> ModifierCount(input.orderItems) > 0)
    // with no modifier selected anywhere, the empty link insert (or the
    // empty item insert) throws after the order row is written
    ensures ValidOrderInput(input) && fault == NoFault &&
            CheckUserAccess(db.staff, user, input.restaurantId, OrderRoles).Ok? && LocationRule(input).None? &&
            ModifierCount(input.orderItems) == 0 ==>
      && out.result == Err(TrpcError(InternalServerError, "Failed to create order " + EmptyValues))
      && out.db.orders == db.orders + [OrderRowOf(input, db.nextOrderId)]
    ensures out.result.Ok? ==>
      var orderId, firstId := out.result.value, db.nextOrderItemId;
      && orderId == db.nextOrderId
      && ModifierCount(input.orderItems) > 0
      && out.db.orders == db.orders + [OrderRowOf(input, orderId)]
      && out.db.orderItems == db.orderItems + ItemRows(input.orderItems, orderId, firstId)
      && out.db.modifierLinks == db.modifierLinks + LinksOfLines(input.orderItems, firstId)
      && out.db.restaurants == db.restaurants && out.db.staff == db.staff
  {
    if !ValidOrderInput(input) then Outcome(db, Err(InvalidInput))
    else
      var (db', body) := AddOrderBody(db, user, input, fault, false);
      Outcome(db', Catch(body, "Failed to create order ", true))
  }

  /** `addOrder` with an insert of no rows left out, as evidently intended:
      an order without modifiers, or without lines, is placed. */
  function AddOrderSkippingEmptyInserts(db: Db, user: UserId, input: OrderInput, fault: DbFault): (out: Outcome<int>)
    ensures out.result.Err? && out.result.error.code != InternalServerError ==> out.db == db
    ensures out.result.Err? && out.result.error.code == InternalServerError ==> fault.FailsAt?
    ensures ValidOrderInput(input) && fault == NoFault &&
            CheckUserAccess(db.staff, user, input.restaurantId, OrderRoles).Ok? && LocationRule(input).None? ==>
      out.result.Ok?
    ensures out.result.Ok? ==>
      var orderId, firstId := out.result.value, db.nextOrderItemId;
      && orderId == db.nextOrderId
      && out.db.orders == db.orders + [OrderRowOf(input, orderId)]
      && out.db.orderItems == db.orderItems + ItemRows(input.orderItems, orderId, firstId)
      && out.db.modifierLinks == db.modifierLinks + LinksOfLines(input.orderItems, firstId)
      && out.db.restaurants == db.restaurants && out.db.staff == db.staff
  {
    if !ValidOrderInput(input) then Outcome(db, Err(InvalidInput))
    else
      var (db', body) := AddOrderBody(db, user, input, fault, true);
      Outcome(db', Catch(body, "Failed to create order ", true))
  }

  /** Once some modifier is selected, every insert has rows and the
      corrected handler is the handler as written. */
  lemma SkippingAgreesWithModifiers(db: Db, user: UserId, input: OrderInput, fault: DbFault)
    requires ModifierCount(input.orderItems) > 0
    ensures AddOrderSkippingEmptyInserts(db, user, input, fault) == AddOrder(db, user, input, fault)
  {
  }

  /** As written, an order whose lines select no modifier fails with
      INTERNAL_SERVER_ERROR although its order and item rows were written. */
  lemma AddOrderWithoutModifiersFails(db: Db, user: UserId, input: OrderInput)
    requires ValidOrderInput(input)
    requires CheckUserAccess(db.staff, user, input.restaurantId, OrderRoles).Ok?
    requires LocationRule(input).None?
    requires input.orderItems != [] && ModifierCount(input.orderItems) == 0
    ensures var out := AddOrder(db, user, input, NoFault);
      && out.result == Err(TrpcError(InternalServerError, "Failed to create order " + EmptyValues))
      && out.db.orders == db.orders + [OrderRowOf(input, db.nextOrderId)]
      && out.db.orderItems == db.orderItems + ItemRows(input.orderItems, db.nextOrderId, db.nextOrderItemId)
    ensures AddOrderSkippingEmptyInserts(db, user, input, NoFault).result == Ok(db.nextOrderId)
  {
    assert |LinksOfLines(input.orderItems, db.nextOrderItemId)| == 0;
  }

  /** On success the new rows are exactly one order, one item per line
      carrying the new order id, and one link per selected modifier whose
      item is the one inserted for its line. */
  lemma AddOrderShape(db: Db, user: UserId, input: OrderInput, fault: DbFault)
    requires AddOrder(db, user, input, fault).result.Ok?
    ensures var out := AddOrder(db, user, input, fault);
      var orderId, firstId := out.result.value, db.nextOrderItemId;
      var newItems, newLinks := out.db.orderItems[|db.orderItems|..], out.db.modifierLinks[|db.modifierLinks|..];
      && |out.db.orders| == |db.orders| + 1
      && |newItems| == |input.orderItems|
      && (forall i :: 0 <= i < |newItems| ==> newItems[i].orderId == orderId && newItems[i].id == firstId + i)
      && |newLinks| == ModifierCount(input.orderItems)
      && (forall o, m :: ModifierLink(o, m) in newLinks <==>
            exists i :: 0 <= i < |input.orderItems| && o == newItems[i].id && m in input.orderItems[i].modifierIds)
  {
    var out := AddOrder(db, user, input, fault);
    var newItems := out.db.orderItems[|db.orderItems|..];
    assert newItems == ItemRows(input.orderItems, out.result.value, db.nextOrderItemId);
    assert out.db.modifierLinks[|db.modifierLinks|..] == LinksOfLines(input.orderItems, db.nextOrderItemId);
    forall o, m
      ensures ModifierLink(o, m) in LinksOfLines(input.orderItems, db.nextOrderItemId) <==>
        exists i :: 0 <= i < |input.orderItems| && o == newItems[i].id && m in input.orderItems[i].modifierIds
    {
      LinksOfLinesMembers(input.orderItems, db.nextOrderItemId, o, m);
    }
  }

  /** The order placement is not atomic: when the order-item insert fails,
      the order row already written stays. */
  lemma AddOrderKeepsOrderRowOnItemFault(db: Db, user: UserId, input: OrderInput, cause: string)
    requires ValidOrderInput(input)
    requires CheckUserAccess(db.staff, user, input.restaurantId, OrderRoles).Ok?
    requires LocationRule(input).None?
    requires input.orderItems != []
    ensures var out := AddOrder(db, user, input, FailsAt(2, cause));
      && out.result == Err(TrpcError(InternalServerError, "Failed to create order " + cause))
      && out.db.orders == db.orders + [OrderRowOf(input, db.nextOrderId)]
      && out.db.orderItems == db.orderItems
  {
  }

  /** The row `addOrderItem` inserts, with the id the store assigns. */
  function ItemRowOf(input: OrderItemInput, id: int): OrderItemRow {
    OrderItemRow(id, input.restaurantId, input.menuItemId, input.restaurantStaffId,
                 input.orderId, input.specialInstructions)
  }

  /** `addOrderItem`: statement 0 is the membership read, 1 the item insert,
      2 the link insert. As written (`skipEmpty` false) an empty list of
      modifier ids makes the link insert throw after the item row is
      written; with `skipEmpty` that insert is left out. */
  function AddOrderItemBody(db: Db, user: UserId, input: OrderItemInput, fault: DbFault, skipEmpty: bool): (Db, Attempt<int>) {
    if FailsAtStep(fault, 0) then (db, Threw(Unclassified(fault.cause)))
    else match CheckUserAccess(db.staff, user, input.restaurantId, OrderRoles)
      case Err(e) => (db, Threw(Classified(e)))
      case Ok(_) =>
        if FailsAtStep(fault, 1) then (db, Threw(Unclassified(fault.cause)))
        else
          var id := db.nextOrderItemId;
          var db1 := db.(orderItems := db.orderItems + [ItemRowOf(input, id)], nextOrderItemId := id + 1);
          if input.modifierIds == [] then
            (if skipEmpty then (db1, Returned(id)) else (db1, Threw(Unclassified(EmptyValues))))
          else if FailsAtStep(fault, 2) then (db1, Threw(Unclassified(fault.cause)))
          else (db1.(modifierLinks := db.modifierLinks + Links(input.modifierIds, id)), Returned(id))
  }

  /** `addOrderItem` as written. */
  function AddOrderItem(db: Db, user: UserId, input: OrderItemInput, fault: DbFault): (out: Outcome<int>)
    ensures !FailsAtStep(fault, 0) && CheckUserAccess(db.staff, user, input.restaurantId, OrderRoles).Err? ==>
      out == Outcome(db, CheckUserAccess(db.staff, user, input.restaurantId, OrderRoles).PropagateFailure())
    ensures out.result.Err? && out.result.error.code != InternalServerError ==> out.db == db
    ensures out.result.Err? && out.result.error.code == InternalServerError ==>
      && out.result.error.message == "Failed to create order"
      && (fault.FailsAt? || input.modifierIds == [])
    ensures fault == NoFault && CheckUserAccess(db.staff, user, input.restaurantId, OrderRoles).Ok? ==>
      (out.result.Ok? <==> input.modifierIds != [])
    // no modifier ids: the item row is written, then the empty link insert throws
    ensures fault == NoFault && CheckUserAccess(db.staff, user, input.restaurantId, OrderRoles).Ok? &&
            input.modifierIds == [] ==>
      && out.result == Err(TrpcError(InternalServerError, "Failed to create order"))
      && out.db.orderItems == db.orderItems + [ItemRowOf(input, db.nextOrderItemId)]
    ensures out.result.Ok? ==>
      var id := out.result.value;
      && id == db.nextOrderItemId
      && input.modifierIds != []
      && out.db.orderItems == db.orderItems + [ItemRowOf(input, id)]
      && |out.db.modifierLinks| == |db.modifierLinks| + |input.modifierIds|
      && (forall k :: |db.modifierLinks| <= k < |out.db.modifierLinks| ==>
            out.db.modifierLinks[k] == ModifierLink(id, input.modifierIds[k - |db.modifierLinks|]))
      && out.db.modifierLinks[..|db.modifierLinks|] == db.modifierLinks
      && out.db.orders == db.orders
      && out.db.restaurants == db.restaurants && out.db.staff == db.staff
  {
    var (db', body) := AddOrderItemBody(db, user, input, fault, false);
    Outcome(db', Catch(body, "Failed to create order", false))
  }

  /** `addOrderItem` with the empty link insert left out, as evidently
      intended: an item without modifiers is added. */
  function AddOrderItemSkippingEmptyLinks(db: Db, user: UserId, input: OrderItemInput, fault: DbFault): (out: Outcome<int>)
    ensures out.result.Err? && out.result.error.code != InternalServerError ==> out.db == db
    ensures out.result.Err? && out.result.error.code == InternalServerError ==> fault.FailsAt?
    ensures fault == NoFault && CheckUserAccess(db.staff, user, input.restaurantId, OrderRoles).Ok? ==> out.result.Ok?
    ensures out.result.Ok? ==>
      var id := out.result.value;
      && id == db.nextOrderItemId
      && out.db.orderItems == db.orderItems + [ItemRowOf(input, id)]
      && out.db.modifierLinks == db.modifierLinks + Links(input.modifierIds, id)
      && out.db.orders == db.orders
      && out.db.restaurants == db.restaurants && out.db.staff == db.staff
  {
    var (db', body) := AddOrderItemBody(db, user, input, fault, true);
    Outcome(db', Catch(body, "Failed to create order", false))
  }

  /** As written, an item without modifiers is stored yet answered with
      INTERNAL_SERVER_ERROR; the corrected handler accepts it, and agrees
      with the handler as written whenever some modifier is selected. */
  lemma AddOrderItemWithoutModifiersFails(db: Db, user: UserId, input: OrderItemInput, fault: DbFault)
    requires CheckUserAccess(db.staff, user, input.restaurantId, OrderRoles).Ok?
    ensures input.modifierIds == [] ==>
      && AddOrderItem(db, user, input, NoFault).result.Err?
      && AddOrderItem(db, user, input, NoFault).db.orderItems == db.orderItems + [ItemRowOf(input, db.nextOrderItemId)]
      && AddOrderItemSkippingEmptyLinks(db, user, input, NoFault).result == Ok(db.nextOrderItemId)
    ensures input.modifierIds != [] ==>
      AddOrderItemSkippingEmptyLinks(db, user, input, fault) == AddOrderItem(db, user, input, fault)
  {
  }

  /** The item insert is not undone: when the link insert fails, the item
      row stays and no link row is written. */
  lemma AddOrderItemKeepsItemRowOnLinkFault(db: Db, user: UserId, input: OrderItemInput, cause: string)
    requires CheckUserAccess(db.staff, user, input.restaurantId, OrderRoles).Ok?
    ensures var out := AddOrderItem(db, user, input, FailsAt(2, cause));
      && out.result == Err(TrpcError(InternalServerError, "Failed to create order"))
      && out.db.orderItems == db.orderItems + [ItemRowOf(input, db.nextOrderItemId)]
      && out.db.modifierLinks == db.modifierLinks
  {
  }

  /** The link rows `addOrderItem` writes all name the item row it wrote,
      one per selected modifier, in order. */
  lemma AddOrderItemLinksNameNewItem(db: Db, user: UserId, input: OrderItemInput, fault: DbFault)
    requires AddOrderItem(db, user, input, fault).result.Ok?
    ensures var out := AddOrderItem(db, user, input, fault);
      var item := out.db.orderItems[|db.orderItems|];
      && item.id == out.result.value && item.orderId == input.orderId
      && out.db.modifierLinks == db.modifierLinks + Links(input.modifierIds, item.id)
  {
    var out := AddOrderItem(db, user, input, fault);
    var item := out.db.orderItems[|db.orderItems|];
    var added := Links(input.modifierIds, item.id);
    assert out.db.modifierLinks[|db.modifierLinks|..] == added;
    assert out.db.modifierLinks == out.db.modifierLinks[..|db.modifierLinks|] + out.db.modifierLinks[|db.modifierLinks|..];
  }
}

=== FILE: order_taker.dfy ===
/** The order-taking screen: the cart and its total in cents, the modifier
    selection of the item being added, the location / location-info / items
    stages with their Continue and Back buttons, the digit-only inputs, and
    the order the screen submits. */
module OrderTaker {
  import opened Errors
  import opened Store
  import opened Seqs
  import Text
  import OrderRouter
  import RestaurantRouter
  import Sidebar

  datatype Modifier = Modifier(id: int, name: string, priceAdjustment: int)

  /** A menu item as the screen receives it; `price` is in cents. */
  datatype MenuItem = MenuItem(id: int, name: string, price: int, modifiers: seq<Modifier>)

  datatype CartLine = CartLine(item: MenuItem, specialInstructions: string, selectedModifiers: seq<int>)

  // ---------------------------------------------------------------- pricing

  predicate HasModifier(mods: seq<Modifier>, id: int) {
    exists k :: 0 <= k < |mods| && mods[k].id == id
  }

  /** Position `k` holds the first modifier with id `id`. */
  predicate FirstWithId(mods: seq<Modifier>, id: int, k: int) {
    && 0 <= k < |mods| && mods[k].id == id
    && forall j :: 0 <= j < k ==> mods[j].id != id
  }

  /** `mods.find(mod => mod.id === id)?.priceAdjustment || 0`: the first
      modifier with that id decides, an unknown id contributes nothing. */
  function Adjustment(mods: seq<Modifier>, id: int): (r: int)
    ensures !HasModifier(mods, id) ==> r == 0
    ensures forall k :: FirstWithId(mods, id, k) ==> r == mods[k].priceAdjustment
  {
    if mods == [] then 0
    else if mods[0].id == id then
      assert forall k :: FirstWithId(mods, id, k) ==> k == 0;
      mods[0].priceAdjustment
    else
      assert !HasModifier(mods, id) ==> !HasModifier(mods[1..], id) by {
        if HasModifier(mods[1..], id) {
          var k :| 0 <= k < |mods[1..]| && mods[1..][k].id == id;
          assert mods[k + 1].id == id;
        }
      }
      assert forall k :: FirstWithId(mods, id, k) ==> FirstWithId(mods[1..], id, k - 1) by {
        forall k | FirstWithId(mods, id, k) ensures FirstWithId(mods[1..], id, k - 1) {
          assert k != 0;
          forall j | 0 <= j < k - 1 ensures mods[1..][j].id != id {
            assert mods[1..][j] == mods[j + 1];
          }
        }
      }
      Adjustment(mods[1..], id)
  }

  /** The inner `reduce`: the adjustments of the selected ids, one term per
      selected id. */
  function SelectedAdjustments(mods: seq<Modifier>, selected: seq<int>): (r: int)
    ensures (forall i :: 0 <= i < |selected| ==> !HasModifier(mods, selected[i])) ==> r == 0
  {
    if selected == [] then 0
    else Adjustment(mods, selected[0]) + SelectedAdjustments(mods, selected[1..])
  }

  /** One cart line: the item's price plus its selected adjustments. When
      neither ids nor selection repeat, that is the price plus the
      adjustment of every listed modifier that is selected. */
  function LineTotal(line: CartLine): (r: int)
    ensures DistinctIds(line.item.modifiers) && Distinct(line.selectedModifiers) ==>
      r == line.item.price + ListedAdjustments(line.item.modifiers, line.selectedModifiers)
    ensures line.selectedModifiers == [] ==> r == line.item.price
  {
    var r := line.item.price + SelectedAdjustments(line.item.modifiers, line.selectedModifiers);
    if DistinctIds(line.item.modifiers) && Distinct(line.selectedModifiers) then
      SelectedMatchesListed(line.item.modifiers, line.selectedModifiers);
      r
    else r
  }

  /** `calculateTotal` before the division by 100: the cart total in cents.
      With no line below zero the total bounds every line. */
  function Total(lines: seq<CartLine>): (r: int)
    ensures NoNegativeLine(lines) ==> r >= 0 && EveryLineAtMost(lines, r)
  {
    if lines == [] then 0
    else
      assert forall i :: 1 <= i < |lines| ==> lines[1..][i - 1] == lines[i];
      LineTotal(lines[0]) + Total(lines[1..])
  }

  predicate NoNegativeLine(lines: seq<CartLine>) {
    forall i :: 0 <= i < |lines| ==> LineTotal(lines[i]) >= 0
  }

  predicate EveryLineAtMost(lines: seq<CartLine>, bound: int) {
    forall i :: 0 <= i < |lines| ==> LineTotal(lines[i]) <= bound
  }

  lemma {:induction false} TotalAppend(a: seq<CartLine>, b: seq<CartLine>)
    ensures Total(a + b) == Total(a) + Total(b)
  {
    if a == [] {
      assert a + b == b;
    } else {
      assert (a + b)[0] == a[0];
      assert (a + b)[1..] == a[1..] + b;
      TotalAppend(a[1..], b);
    }
  }

  lemma {:induction false} SelectedAppend(mods: seq<Modifier>, a: seq<int>, b: seq<int>)
    ensures SelectedAdjustments(mods, a + b) == SelectedAdjustments(mods, a) + SelectedAdjustments(mods, b)
  {
    if a == [] {
      assert a + b == b;
    } else {
      assert (a + b)[0] == a[0];
      assert (a + b)[1..] == a[1..] + b;
      SelectedAppend(mods, a[1..], b);
    }
  }

  /** A selected id that is not one of the item's modifiers contributes 0,
      wherever it sits in the selection, and raises no error. */
  lemma UnknownModifierIgnored(mods: seq<Modifier>, before: seq<int>, id: int, after: seq<int>)
    requires !HasModifier(mods, id)
    ensures SelectedAdjustments(mods, before + [id] + after) == SelectedAdjustments(mods, before + after)
  {
    SelectedAppend(mods, before + [id], after);
    SelectedAppend(mods, before, [id]);
    SelectedAppend(mods, before, after);
    assert SelectedAdjustments(mods, [id]) == Adjustment(mods, id) + SelectedAdjustments(mods, []);
  }

  predicate DistinctIds(mods: seq<Modifier>) {
    forall i, j :: 0 <= i < j < |mods| ==> mods[i].id != mods[j].id
  }

  /** The reference definition of a line's modifier sum: the adjustments of
      the item's modifiers whose id is selected. */
  function ListedAdjustments(mods: seq<Modifier>, selected: seq<int>): int {
    if mods == [] then 0
    else (if mods[0].id in selected then mods[0].priceAdjustment else 0) + ListedAdjustments(mods[1..], selected)
  }

  lemma {:induction false} ListedCons(mods: seq<Modifier>, s: int, rest: seq<int>)
    requires DistinctIds(mods) && s !in rest
    ensures ListedAdjustments(mods, [s] + rest) == Adjustment(mods, s) + ListedAdjustments(mods, rest)
  {
    if mods != [] {
      var m, ms := mods[0], mods[1..];
      assert DistinctIds(ms) by {
        forall i, j | 0 <= i < j < |ms| ensures ms[i].id != ms[j].id {
          assert ms[i] == mods[i + 1] && ms[j] == mods[j + 1];
        }
      }
      ListedCons(ms, s, rest);
    }
  }

  /** When neither the item's modifier ids nor the selection repeat, the
      screen's sum over selected ids equals the sum over the item's selected
      modifiers. */
  lemma {:induction false} SelectedMatchesListed(mods: seq<Modifier>, selected: seq<int>)
    requires DistinctIds(mods) && Distinct(selected)
    ensures SelectedAdjustments(mods, selected) == ListedAdjustments(mods, selected)
  {
    if selected == [] {
      ListedNoneSelected(mods);
    } else {
      var s, rest := selected[0], selected[1..];
      assert Distinct(rest) by {
        forall i, j | 0 <= i < j < |rest| ensures rest[i] != rest[j] {
          assert rest[i] == selected[i + 1] && rest[j] == selected[j + 1];
        }
      }
      SelectedMatchesListed(mods, rest);
      assert selected == [s] + rest;
      ListedCons(mods, s, rest);
    }
  }

  lemma {:induction false} ListedNoneSelected(mods: seq<Modifier>)
    ensures ListedAdjustments(mods, []) == 0
  {
    if mods != [] {
      ListedNoneSelected(mods[1..]);
    }
  }

  /** An item of 1200 cents with modifiers of +150 and -50 both selected
      comes to 1300 cents. */
  lemma WorkedLineTotal()
    ensures LineTotal(CartLine(MenuItem(1, "Burger", 1200, [Modifier(10, "Cheese", 150), Modifier(11, "No bun", -50)]),
                               "", [10, 11])) == 1300
  {
  }

  // ----------------------------------------------------- item being added

  /** The cart together with the item being configured. */
  datatype Draft = Draft(currentItem: Option<MenuItem>, selectedModifiers: seq<int>,
                         specialInstructions: string, lines: seq<CartLine>)

  /** `toggleModifier`: drop a selected id, or append an unselected one. */
  function ToggleModifier(selected: seq<int>, id: int): (r: seq<int>)
    ensures id !in selected ==> r == selected + [id]
    ensures id in selected ==> r == RemoveAll(selected, id)
    ensures id in r <==> id !in selected
    ensures forall x :: x != id ==> (x in r <==> x in selected)
    ensures Distinct(selected) ==> Distinct(r)
  {
    if id in selected then
      assert forall x :: x in RemoveAll(selected, id) <==> x in selected && x != id by {
        forall x ensures x in RemoveAll(selected, id) <==> x in selected && x != id {
          RemoveAllMembers(selected, id, x);
        }
      }
      assert Distinct(selected) ==> Distinct(RemoveAll(selected, id)) by {
        if Distinct(selected) {
          RemoveAllDistinct(selected, id);
        }
      }
      RemoveAll(selected, id)
    else selected + [id]
  }

  /** Toggling an unselected id twice restores the selection. */
  lemma ToggleTwiceRestores(selected: seq<int>, id: int)
    requires id !in selected
    ensures ToggleModifier(ToggleModifier(selected, id), id) == selected
  {
    RemoveAllSingle(selected, id, []);
    assert selected + [id] + [] == selected + [id];
    assert selected + [] == selected;
  }

  /** `addItemToOrder`: start configuring `item` afresh. */
  function AddItemToOrder(d: Draft, item: MenuItem): (r: Draft)
    ensures r.currentItem == Some(item) && r.selectedModifiers == [] && r.specialInstructions == ""
    ensures r.lines == d.lines
  {
    d.(currentItem := Some(item), selectedModifiers := [], specialInstructions := "")
  }

  /** `confirmItem`: with an item being configured, append it as the last
      cart line and reset the item; otherwise do nothing. */
  function ConfirmItem(d: Draft): (r: Draft)
    ensures d.currentItem.None? ==> r == d
    ensures d.currentItem.Some? ==>
      && r.lines == d.lines + [CartLine(d.currentItem.value, d.specialInstructions, d.selectedModifiers)]
      && r.currentItem.None? && r.selectedModifiers == [] && r.specialInstructions == ""
  {
    match d.currentItem
    case None => d
    case Some(item) =>
      Draft(None, [], "", d.lines + [CartLine(item, d.specialInstructions, d.selectedModifiers)])
  }

  /** The Cancel button: the item being configured is dropped, the cart is
      kept. The selection and instructions are left as they are; the next
      `AddItemToOrder` resets them. */
  function CancelItem(d: Draft): (r: Draft)
    ensures r.currentItem.None? && r.lines == d.lines
    ensures Total(r.lines) == Total(d.lines)
    ensures ConfirmItem(r) == r
  {
    d.(currentItem := None)
  }

  /** Confirming raises the total by exactly the new line's total. */
  lemma ConfirmAddsLineTotal(d: Draft)
    requires d.currentItem.Some?
    ensures Total(ConfirmItem(d).lines)
         == Total(d.lines) + LineTotal(CartLine(d.currentItem.value, d.specialInstructions, d.selectedModifiers))
  {
    var line := CartLine(d.currentItem.value, d.specialInstructions, d.selectedModifiers);
    TotalAppend(d.lines, [line]);
    assert Total([line]) == LineTotal(line) + Total([]);
  }

  /** `removeItem(index)`: `splice(index, 1)` on a copy of the cart. */
  function RemoveItem(lines: seq<CartLine>, index: int): (r: seq<CartLine>)
    ensures 0 <= index < |lines| ==> r == lines[..index] + lines[index + 1..]
    ensures index >= |lines| ==> r == lines
  {
    RemoveAt(lines, index)
  }

  /** Removing line i lowers the total by exactly that line's total. */
  lemma RemoveSubtractsLineTotal(lines: seq<CartLine>, index: int)
    requires 0 <= index < |lines|
    ensures Total(RemoveItem(lines, index)) == Total(lines) - LineTotal(lines[index])
  {
    var a, x, b := lines[..index], [lines[index]], lines[index + 1..];
    SplitAround(lines, index);
    TotalAppend(a, x + b);
    TotalAppend(x, b);
    TotalAppend(a, b);
    TotalSingle(lines[index]);
  }

  lemma TotalSingle(line: CartLine)
    ensures Total([line]) == LineTotal(line)
  {
    assert [line][1..] == [];
  }

  // ----------------------------------------------------------- the stages

  datatype Stage = ChooseLocation | LocationInfo | Items

  /** The location part of the screen; text fields hold what is displayed. */
  datatype Screen = Screen(location: Option<Location>, phone: string, table: string, name: string, stage: Stage)

  const InitialScreen: Screen := Screen(None, "", "", "", ChooseLocation)

  /** The table input keeps only digits. */
  function TableInput(raw: string): (r: string)
    ensures Text.AllDigits(r)
    ensures Text.AllDigits(raw) ==> r == raw
  {
    Text.KeepDigits(raw)
  }

  /** The phone input keeps only digits, and at most the first ten. */
  function PhoneInput(raw: string): (r: string)
    ensures Text.AllDigits(r)
    ensures |r| == if |Text.KeepDigits(raw)| < 10 then |Text.KeepDigits(raw)| else 10
    ensures r == Text.KeepDigits(raw)[..|r|]
  {
    var digits := Text.KeepDigits(raw);
    if |digits| <= 10 then digits else digits[..10]
  }

  /** Sanitising what is already shown changes nothing. */
  lemma PhoneInputIdempotent(raw: string)
    ensures PhoneInput(PhoneInput(raw)) == PhoneInput(raw)
  {
  }

  /** The phone input shows a valid ten-digit phone exactly when at least
      ten digits were typed. */
  lemma PhoneInputTenDigits(raw: string)
    ensures Text.IsTenDigitPhone(PhoneInput(raw)) <==> |Text.KeepDigits(raw)| >= 10
  {
  }

  /** Typing one more character into the phone field: a digit is appended
      while fewer than ten are shown, anything else is dropped. */
  lemma PhoneKeystroke(shown: string, c: char)
    requires Text.AllDigits(shown) && |shown| <= 10
    ensures PhoneInput(shown + [c]) == if Text.IsDigit(c) && |shown| < 10 then shown + [c] else shown
  {
    Text.KeepDigitsAppend(shown, [c]);
    assert Text.KeepDigits([c]) == Text.KeepDigits([c][1..]) || Text.KeepDigits([c]) == [c] + Text.KeepDigits([c][1..]);
    assert [c][1..] == [];
    assert (shown + [c])[..|shown|] == shown;
  }

  /** The To Go tile: clears the table number. */
  function ChooseToGo(s: Screen): (r: Screen)
    ensures r.location == Some(ToGo) && r.stage == LocationInfo && r.table == ""
    ensures r.name == s.name && r.phone == s.phone
  {
    s.(location := Some(ToGo), table := "", stage := LocationInfo)
  }

  /** The Table tile: clears the name and the phone. */
  function ChooseTable(s: Screen): (r: Screen)
    ensures r.location == Some(Table) && r.stage == LocationInfo && r.name == "" && r.phone == ""
    ensures r.table == s.table
  {
    s.(location := Some(Table), name := "", phone := "", stage := LocationInfo)
  }

  /** What Continue demands of the location info. */
  predicate LocationInfoComplete(s: Screen) {
    && (s.location == Some(Table) ==> s.table != "")
    && (s.location == Some(ToGo) ==> s.name != "" && s.phone != "" && |s.phone| == 10)
  }

  /** `continueToItems`: on to the items stage only when the location info
      is complete; otherwise the screen stays as it is. */
  function ContinueToItems(s: Screen): (r: Screen)
    ensures LocationInfoComplete(s) ==> r == s.(stage := Items)
    ensures !LocationInfoComplete(s) ==> r == s
  {
    if s.location == Some(Table) && s.table == "" then s
    else if s.location == Some(ToGo) && (s.name == "" || s.phone == "" || |s.phone| != 10) then s
    else s.(stage := Items)
  }

  /** The Back button either changes the screen or leaves the screen for
      the page at `path`. */
  datatype BackResult = Stay(screen: Screen) | Leave(path: string)

  /** The Back button's logic, leaving for `exitPath` from the first stage
      or from a location-info stage without a location. */
  function BackTo(s: Screen, exitPath: string): (r: BackResult)
    ensures s.stage == Items ==> r == Stay(s.(stage := LocationInfo))
    ensures s.stage == LocationInfo && s.location.Some? ==> r == Stay(s.(location := None, stage := ChooseLocation))
    ensures s.stage == ChooseLocation || (s.stage == LocationInfo && s.location.None?) ==> r == Leave(exitPath)
  {
    if s.stage == Items then Stay(s.(stage := LocationInfo))
    else if s.location.Some? && s.stage == LocationInfo then Stay(s.(location := None, stage := ChooseLocation))
    else Leave(exitPath)
  }

  /** As written, leaving goes to restaurant 1's new-order page whatever
      the restaurant. */
  const ExitPathAsWritten: string := "/dashboard/1/orders/new"

  function BackAsWritten(s: Screen): (r: BackResult)
    ensures r.Leave? ==> r.path == ExitPathAsWritten
  {
    BackTo(s, ExitPathAsWritten)
  }

  /** The new-order page of restaurant `restaurantId`. */
  function NewOrderPath(restaurantId: nat): string {
    Sidebar.BasePath(restaurantId) + "/orders/new"
  }

  /** As evidently intended: leaving goes to the new-order page of the
      restaurant the screen is taking orders for. */
  function Back(s: Screen, restaurantId: nat): (r: BackResult)
    ensures r.Leave? ==> r.path == NewOrderPath(restaurantId)
    ensures r.Stay? <==> BackAsWritten(s).Stay?
    ensures r.Stay? ==> r == BackAsWritten(s)
  {
    BackTo(s, NewOrderPath(restaurantId))
  }

  /** On the first stage of restaurant 2's order screen, Back as written
      leaves for restaurant 1's new-order page. */
  lemma BackLeavesForRestaurantOneAsWritten()
    ensures BackAsWritten(InitialScreen) == Leave(ExitPathAsWritten)
    ensures ExitPathAsWritten != NewOrderPath(2)
  {
    assert Text.NatToString(2) == "2";
    assert ExitPathAsWritten[11] != NewOrderPath(2)[11];
  }

  /** The corrected Back leaves for the sidebar's "Place Order" link of the
      same restaurant. */
  lemma BackLeavesForPlaceOrderLink(s: Screen, restaurantId: nat)
    requires Back(s, restaurantId).Leave?
    ensures Back(s, restaurantId).path == Sidebar.Links(Sidebar.NavigationItems(restaurantId))[1].href
  {
  }

  /** What the user can do on the screen. */
  datatype Event = PickToGo | PickTable | TypeTable(raw: string) | TypeName(raw: string)
                 | TypePhone(raw: string) | Continue | PressBack

  /** The events the rendered screen offers: the tiles on the location
      stage, the inputs of the chosen location and Continue on the
      location-info stage, Back always. */
  predicate Offered(s: Screen, e: Event) {
    match e
    case PickToGo => s.stage == ChooseLocation
    case PickTable => s.stage == ChooseLocation
    case TypeTable(_) => s.stage == LocationInfo && s.location == Some(Table)
    case TypeName(_) => s.stage == LocationInfo && s.location == Some(ToGo)
    case TypePhone(_) => s.stage == LocationInfo && s.location == Some(ToGo)
    case Continue => s.stage == LocationInfo && s.location.Some?
    case PressBack => true
  }

  /** One event; `None` when the screen is left. */
  function Step(s: Screen, e: Event, restaurantId: nat): (r: Option<Screen>)
    ensures r.None? <==> e == PressBack && Back(s, restaurantId).Leave?
    ensures e.TypeTable? || e.TypeName? || e.TypePhone? ==>
      r.Some? && r.value.stage == s.stage && r.value.location == s.location
    // the items stage is entered only by Continue with complete location info
    ensures r.Some? && r.value.stage == Items && s.stage != Items ==> e == Continue && LocationInfoComplete(s)
  {
    match e
    case PickToGo => Some(ChooseToGo(s))
    case PickTable => Some(ChooseTable(s))
    case TypeTable(raw) => Some(s.(table := TableInput(raw)))
    case TypeName(raw) => Some(s.(name := raw))
    case TypePhone(raw) => Some(s.(phone := PhoneInput(raw)))
    case Continue => Some(ContinueToItems(s))
    case PressBack => if Back(s, restaurantId).Stay? then Some(Back(s, restaurantId).screen) else None
  }

  /** What holds of every screen reachable from the initial one: past the
      first stage a location is chosen, the items stage is reached only with
      complete location info, and the text fields hold what the sanitisers
      let through. */
  predicate Consistent(s: Screen) {
    && (s.stage != ChooseLocation ==> s.location.Some?)
    && (s.stage == Items ==> LocationInfoComplete(s))
    && Text.AllDigits(s.table)
    && Text.AllDigits(s.phone) && |s.phone| <= 10
  }

  lemma InitialConsistent()
    ensures Consistent(InitialScreen)
  {
  }

  lemma StepKeepsConsistent(s: Screen, e: Event, restaurantId: nat)
    requires Consistent(s) && Offered(s, e) && Step(s, e, restaurantId).Some?
    ensures Consistent(Step(s, e, restaurantId).value)
  {
  }

  // ------------------------------------------------------------ submitting

  /** The cart lines as the order input's items. */
  function LineInputs(lines: seq<CartLine>, restaurantId: int, staffId: int): (r: seq<OrderRouter.LineInput>)
    ensures |r| == |lines|
    ensures forall i :: 0 <= i < |lines| ==>
      r[i] == OrderRouter.LineInput(restaurantId, lines[i].item.id, staffId,
                                    Some(lines[i].specialInstructions), lines[i].selectedModifiers)
  {
    seq(|lines|, i requires 0 <= i < |lines| =>
      OrderRouter.LineInput(restaurantId, lines[i].item.id, staffId,
                            Some(lines[i].specialInstructions), lines[i].selectedModifiers))
  }

  /** `submitOrder`: the order input sent to `addOrder`, or `None` when the
      screen's own schema check rejects it (no location, an empty table
      number, a phone that is not ten digits). */
  function SubmitOrder(s: Screen, lines: seq<CartLine>, restaurantId: int, staffId: int): (r: Option<OrderRouter.OrderInput>)
    requires Text.AllDigits(s.table)
    ensures r.Some? <==>
      || (s.location == Some(Table) && s.table != "")
      || (s.location == Some(ToGo) && Text.IsTenDigitPhone(s.phone))
    ensures r.Some? ==>
      && r.value.location == s.location.value
      && r.value.restaurantId == restaurantId && r.value.restaurantStaffId == staffId
      && r.value.orderItems == LineInputs(lines, restaurantId, staffId)
      && (s.location == Some(Table) ==> r.value.tableNumber == Some(Text.ParseDigits(s.table))
                                        && r.value.name.None? && r.value.phone.None?)
      && (s.location == Some(ToGo) ==> r.value.tableNumber.None?
                                       && r.value.name == Some(s.name) && r.value.phone == Some(s.phone))
  {
    match s.location
    case None => None
    case Some(Table) =>
      if s.table == [] then None
      else Some(OrderRouter.OrderInput(Table, Some(Text.ParseDigits(s.table)), None, None, restaurantId, staffId,
                                       LineInputs(lines, restaurantId, staffId)))
    case Some(ToGo) =>
      if !Text.IsTenDigitPhone(s.phone) then None
      else Some(OrderRouter.OrderInput(ToGo, None, Some(s.phone), Some(s.name), restaurantId, staffId,
                                       LineInputs(lines, restaurantId, staffId)))
  }

  /** `restaurantDetails.restaurantStaffId` as the screen reads it: the
      `getRestaurantById` answer is the restaurant row and the caller's
      role, with no staff id among its fields, so the read is `undefined`. */
  function DetailsStaffId(details: RestaurantRouter.RestaurantView): (r: Option<int>)
    ensures r.None?
  {
    None
  }

  /** `submitOrder` with the staff id as read: the screen's `orderSchema`
      demands a number, so without one `parse` throws, the catch raises an
      alert, and nothing is sent. */
  function SchemaCheckedOrder(s: Screen, lines: seq<CartLine>, restaurantId: int, staffId: Option<int>): (r: Option<OrderRouter.OrderInput>)
    requires Text.AllDigits(s.table)
    ensures staffId.None? ==> r.None?
    ensures staffId.Some? ==> r == SubmitOrder(s, lines, restaurantId, staffId.value)
  {
    if staffId.None? then None else SubmitOrder(s, lines, restaurantId, staffId.value)
  }

  /** `submitOrder` as written, reading the staff id off the restaurant
      details: whatever the screen holds, nothing is sent. */
  function SubmitOrderAsWritten(s: Screen, lines: seq<CartLine>, details: RestaurantRouter.RestaurantView): (r: Option<OrderRouter.OrderInput>)
    requires Text.AllDigits(s.table)
    ensures r.None?
  {
    SchemaCheckedOrder(s, lines, details.restaurant.id, DetailsStaffId(details))
  }

  /** As written no screen ever sends an order, whereas with the caller's
      staff id supplied every reachable items-stage screen sends one.
      The as-written half is not derived here: it rests on the premise,
      modelled by `DetailsStaffId`, that the restaurant details carry no
      staff id, because the `restaurants` table (schema.ts:116-130) has no
      such column and `getRestaurantById` returns that row and the role. */
  lemma NoOrderSentAsWritten(s: Screen, lines: seq<CartLine>, details: RestaurantRouter.RestaurantView, staffId: int)
    requires Text.AllDigits(s.table)
    ensures SubmitOrderAsWritten(s, lines, details).None?
    ensures Consistent(s) && s.stage == Items ==> SubmitOrder(s, lines, details.restaurant.id, staffId).Some?
  {
  }

  /** From any reachable items-stage screen the submitted order passes the
      server's input schema, and its location rule too unless the table
      number typed reads as 0 (which the screen accepts and the server
      rejects as UNPROCESSABLE_CONTENT). */
  lemma SubmittedOrderMeetsServerRules(s: Screen, lines: seq<CartLine>, restaurantId: int, staffId: int)
    requires Consistent(s) && s.stage == Items
    ensures SubmitOrder(s, lines, restaurantId, staffId).Some?
    ensures var input := SubmitOrder(s, lines, restaurantId, staffId).value;
      && OrderRouter.ValidOrderInput(input)
      && (OrderRouter.LocationRule(input).None? <==> !(s.location == Some(Table) && Text.ParseDigits(s.table) == 0))
  {
  }

  /** A table number of "0" gets past the screen but not the server. */
  lemma ZeroTableRejectedByServer(lines: seq<CartLine>, restaurantId: int, staffId: int)
    ensures var s := Screen(Some(Table), "", "0", "", Items);
      && Consistent(s)
      && SubmitOrder(s, lines, restaurantId, staffId).Some?
      && OrderRouter.LocationRule(SubmitOrder(s, lines, restaurantId, staffId).value)
         == Some(OrderRouter.TableNumberRequired)
  {
    assert "0"[..0] == [];
  }
}

=== FILE: restaurant_router.dfy ===
/** The restaurant procedures: listing a user's restaurants, fetching one
    behind the membership gate, creating one together with its owner
    membership in one transaction, and a partial update restricted to owners
    and managers. */
module RestaurantRouter {
  import opened Errors
  import opened Store
  import opened Access
  import opened Validation

  const RestaurantNotFound: TrpcError := TrpcError(NotFound, "Restaurant not found")
  const NoUpdatePermission: TrpcError :=
    TrpcError(Forbidden, "You don't have permission to update this restaurant")

  const AllRoles: seq<Role> := [Owner, Manager, Server, Kitchen]

  /** The gate written out inside `getRestaurantById` and
      `updateRestaurant`: a missing or deactivated membership is FORBIDDEN,
      any activated membership yields its role. */
  function ActivatedRole(staff: seq<StaffRow>, user: UserId, restaurantId: int): (r: Result<Role>)
    ensures NoMembership(staff, user, restaurantId) ==> r == Err(NoAccess)
    ensures forall i :: IsFirstMatch(staff, user, restaurantId, i) ==>
      r == (if staff[i].activated then Ok(staff[i].role) else Err(NoAccess))
  {
    match FindMembership(staff, user, restaurantId)
    case None => Err(NoAccess)
    case Some(row) => if row.activated then Ok(row.role) else Err(NoAccess)
  }

  /** The inlined gate is `checkUserAccess` with every role required. */
  lemma ActivatedRoleIsCheckWithEveryRole(staff: seq<StaffRow>, user: UserId, restaurantId: int)
    ensures ActivatedRole(staff, user, restaurantId) == CheckUserAccess(staff, user, restaurantId, AllRoles)
  {
    match FindMembership(staff, user, restaurantId)
    case None =>
    case Some(row) =>
      assert row.role in AllRoles by {
        match row.role
        case Owner => assert AllRoles[0] == Owner;
        case Manager => assert AllRoles[1] == Manager;
        case Server => assert AllRoles[2] == Server;
        case Kitchen => assert AllRoles[3] == Kitchen;
      }
  }

  /** The first restaurant row with that id. */
  function FindRestaurant(rows: seq<RestaurantRow>, id: int): (r: Option<RestaurantRow>)
    ensures r.None? <==> forall i :: 0 <= i < |rows| ==> rows[i].id != id
    ensures r.Some? ==> r.value in rows && r.value.id == id
  {
    if rows == [] then None
    else if rows[0].id == id then Some(rows[0])
    else FindRestaurant(rows[1..], id)
  }

  /** What `getRestaurantById` answers: the row and the caller's role. */
  datatype RestaurantView = RestaurantView(restaurant: RestaurantRow, role: Role)

  /** Statement 0 reads the membership, statement 1 the restaurant. */
  function GetRestaurantByIdBody(db: Db, user: UserId, id: int, fault: DbFault): Attempt<RestaurantView> {
    if FailsAtStep(fault, 0) then Threw(Unclassified(fault.cause))
    else match ActivatedRole(db.staff, user, id)
      case Err(e) => Threw(Classified(e))
      case Ok(role) =>
        if FailsAtStep(fault, 1) then Threw(Unclassified(fault.cause))
        else match FindRestaurant(db.restaurants, id)
          case None => Threw(Classified(RestaurantNotFound))
          case Some(row) => Returned(RestaurantView(row, role))
  }

  function GetRestaurantById(db: Db, user: UserId, id: int, fault: DbFault): (r: Result<RestaurantView>)
    // no membership, or a deactivated one: FORBIDDEN, whatever the role
    ensures !FailsAtStep(fault, 0) && ActivatedRole(db.staff, user, id).Err? ==> r == Err(NoAccess)
    // any activated role passes; then a missing row is NOT_FOUND
    ensures fault == NoFault && ActivatedRole(db.staff, user, id).Ok? ==>
      (r.Err? <==> FindRestaurant(db.restaurants, id).None?)
    ensures fault == NoFault && ActivatedRole(db.staff, user, id).Ok? && r.Err? ==> r == Err(RestaurantNotFound)
    ensures r.Ok? ==>
      && r.value.restaurant in db.restaurants && r.value.restaurant.id == id
      && ActivatedRole(db.staff, user, id) == Ok(r.value.role)
    // only a storage fault becomes INTERNAL_SERVER_ERROR
    ensures r.Err? && r.error.code == InternalServerError ==> fault.FailsAt?
    ensures r.Err? ==> r.error.code in {Forbidden, NotFound, InternalServerError}
  {
    Catch(GetRestaurantByIdBody(db, user, id, fault), "Failed to fetch restaurant details", false)
  }

  /** `set({...input.data})`: the supplied fields replace the row's, the
      others are kept. */
  function ApplyPatch(row: RestaurantRow, patch: RestaurantPatch): (r: RestaurantRow)
    ensures r.id == row.id && r.createdById == row.createdById
    ensures r.name == (if patch.name.Some? then patch.name.value else row.name)
    ensures r.kind == (if patch.kind.Some? then patch.kind.value else row.kind)
    ensures r.address == (if patch.address.Some? then patch.address.value else row.address)
    ensures r.phone == (if patch.phone.Some? then patch.phone.value else row.phone)
    ensures r.email == (if patch.email.Some? then patch.email.value else row.email)
    ensures r.taxRate == (if patch.taxRate.Some? then patch.taxRate.value else row.taxRate)
    ensures r.openingHours == (if patch.openingHours.Some? then patch.openingHours.value else row.openingHours)
  {
    row.(name := Or(patch.name, row.name), kind := Or(patch.kind, row.kind),
         address := Or(patch.address, row.address), phone := Or(patch.phone, row.phone),
         email := Or(patch.email, row.email), taxRate := Or(patch.taxRate, row.taxRate),
         openingHours := Or(patch.openingHours, row.openingHours))
  }

  function Or<T>(field: Option<T>, otherwise: T): T {
    if field.Some? then field.value else otherwise
  }

  const EmptyPatch: RestaurantPatch := RestaurantPatch(None, None, None, None, None, None, None)

  /** An empty patch changes nothing, and a patch applied twice is applied once. */
  lemma PatchLaws(row: RestaurantRow, patch: RestaurantPatch)
    ensures ApplyPatch(row, EmptyPatch) == row
    ensures ApplyPatch(ApplyPatch(row, patch), patch) == ApplyPatch(row, patch)
  {
  }

  /** `update(restaurants).set(...).where(eq(restaurants.id, id))`. */
  function UpdateRows(rows: seq<RestaurantRow>, id: int, patch: RestaurantPatch): (r: seq<RestaurantRow>)
    ensures |r| == |rows|
    ensures forall i :: 0 <= i < |rows| ==>
      r[i] == (if rows[i].id == id then ApplyPatch(rows[i], patch) else rows[i])
  {
    seq(|rows|, i requires 0 <= i < |rows| => if rows[i].id == id then ApplyPatch(rows[i], patch) else rows[i])
  }

  /** What the ORM throws when `.set` is given no defined value. */
  const NoValuesToSet := "Error: No values to set"

  /** Statement 0 reads the membership, statement 1 is the update. An empty
      patch never reaches statement 1: building the update throws. */
  function UpdateRestaurantBody(db: Db, user: UserId, id: int, patch: RestaurantPatch, fault: DbFault): (r: (Db, Attempt<int>)) {
    if FailsAtStep(fault, 0) then (db, Threw(Unclassified(fault.cause)))
    else match ActivatedRole(db.staff, user, id)
      case Err(e) => (db, Threw(Classified(e)))
      case Ok(role) =>
        if role != Owner && role != Manager then (db, Threw(Classified(NoUpdatePermission)))
        else if patch == EmptyPatch then (db, Threw(Unclassified(NoValuesToSet)))
        else if FailsAtStep(fault, 1) then (db, Threw(Unclassified(fault.cause)))
        else if FindRestaurant(db.restaurants, id).None? then (db, Threw(Classified(RestaurantNotFound)))
        else (db.(restaurants := UpdateRows(db.restaurants, id, patch)), Returned(id))
  }

  function UpdateRestaurant(db: Db, user: UserId, id: int, data: RawPatch, fault: DbFault): (out: Outcome<int>)
    ensures out.result.Err? ==> out.db == db
    ensures ValidatePatch(data).None? ==> out.result == Err(InvalidInput)
    ensures ValidatePatch(data).Some? && !FailsAtStep(fault, 0) && ActivatedRole(db.staff, user, id).Err? ==>
      out.result == Err(NoAccess)
    // an activated member who is neither owner nor manager
    ensures ValidatePatch(data).Some? && !FailsAtStep(fault, 0) &&
            ActivatedRole(db.staff, user, id).Ok? && ActivatedRole(db.staff, user, id).value !in {Owner, Manager} ==>
      out.result == Err(NoUpdatePermission)
    ensures out.result.Ok? ==>
      && out.result.value == id
      && ActivatedRole(db.staff, user, id).Ok? && ActivatedRole(db.staff, user, id).value in {Owner, Manager}
      && ValidatePatch(data).value != EmptyPatch
      && FindRestaurant(db.restaurants, id).Some?
      && out.db == db.(restaurants := UpdateRows(db.restaurants, id, ValidatePatch(data).value))
    ensures fault == NoFault && ValidatePatch(data).Some? && ValidatePatch(data).value != EmptyPatch &&
            ActivatedRole(db.staff, user, id).Ok? && ActivatedRole(db.staff, user, id).value in {Owner, Manager} ==>
      (out.result.Ok? <==> FindRestaurant(db.restaurants, id).Some?)
    // an empty patch fails inside the try block, so the handler's catch answers it
    ensures ValidatePatch(data) == Some(EmptyPatch) && !FailsAtStep(fault, 0) &&
            ActivatedRole(db.staff, user, id).Ok? && ActivatedRole(db.staff, user, id).value in {Owner, Manager} ==>
      out.result == Err(TrpcError(InternalServerError, "Failed to update restaurant"))
    ensures out.result.Err? && out.result.error.code == InternalServerError ==>
      fault.FailsAt? || ValidatePatch(data) == Some(EmptyPatch)
  {
    match ValidatePatch(data)
    case None => Outcome(db, Err(InvalidInput))
    case Some(patch) =>
      var (db', body) := UpdateRestaurantBody(db, user, id, patch, fault);
      Outcome(db', Catch(body, "Failed to update restaurant", false))
  }

  /** Identity values only grow: every row of the store was numbered below
      the next value of its identity column. */
  predicate Wf(db: Db) {
    && (forall i :: 0 <= i < |db.restaurants| ==> db.restaurants[i].id < db.nextRestaurantId)
    && (forall i :: 0 <= i < |db.staff| ==> db.staff[i].restaurantId < db.nextRestaurantId)
    && (forall i :: 0 <= i < |db.staff| ==> db.staff[i].id < db.nextStaffId)
  }

  /** Statements 0 and 1 (the restaurant insert and the owner insert) run
      in one transaction: a fault in either leaves the store as it was. */
  function CreateRestaurantBody(db: Db, user: UserId, input: RestaurantInput, fault: DbFault): (Db, Attempt<int>) {
    if FailsAtStep(fault, 0) || FailsAtStep(fault, 1) then (db, Threw(Unclassified(fault.cause)))
    else
      var id := db.nextRestaurantId;
      var row := RestaurantRow(id, input.name, input.kind, input.address, input.phone,
                               input.email, input.taxRate, input.openingHours, user);
      var owner := StaffRow(db.nextStaffId, id, user, Owner, true);
      (db.(restaurants := db.restaurants + [row], staff := db.staff + [owner],
           nextRestaurantId := id + 1, nextStaffId := db.nextStaffId + 1),
       Returned(id))
  }

  function CreateRestaurant(db: Db, user: UserId, data: RawRestaurant, fault: DbFault): (out: Outcome<int>)
    ensures out.result.Err? ==> out.db == db
    ensures ValidateRestaurant(data).None? ==> out.result == Err(InvalidInput)
    ensures ValidateRestaurant(data).Some? && fault == NoFault ==> out.result.Ok?
    ensures out.result.Ok? ==>
      var id, input := out.result.value, ValidateRestaurant(data).value;
      && id == db.nextRestaurantId
      && out.db.restaurants == db.restaurants + [RestaurantRow(id, input.name, input.kind, input.address,
           input.phone, input.email, input.taxRate, input.openingHours, user)]
      && out.db.staff == db.staff + [StaffRow(db.nextStaffId, id, user, Owner, true)]
      && out.db.orders == db.orders && out.db.orderItems == db.orderItems
      && out.db.modifierLinks == db.modifierLinks
    ensures out.result.Err? && out.result.error.code != BadRequest ==>
      out.result.error == TrpcError(InternalServerError, "Failed to create restaurant")
  {
    match ValidateRestaurant(data)
    case None => Outcome(db, Err(InvalidInput))
    case Some(input) =>
      var (db', body) := CreateRestaurantBody(db, user, input, fault);
      Outcome(db', Catch(body, "Failed to create restaurant", false))
  }

  /** After creating a restaurant, its creator passes every gate that
      accepts owners, and fetching it answers the new row with role owner. */
  lemma CreatorIsActivatedOwner(db: Db, user: UserId, data: RawRestaurant, fault: DbFault, requiredRoles: seq<Role>)
    requires Wf(db)
    requires CreateRestaurant(db, user, data, fault).result.Ok?
    requires Owner in requiredRoles
    ensures var out := CreateRestaurant(db, user, data, fault);
      && Wf(out.db)
      && CheckUserAccess(out.db.staff, user, out.result.value, requiredRoles) == Ok(Owner)
      && GetRestaurantById(out.db, user, out.result.value, NoFault).Ok?
      && GetRestaurantById(out.db, user, out.result.value, NoFault).value.role == Owner
  {
    var out := CreateRestaurant(db, user, data, fault);
    var id := out.result.value;
    var n := |db.staff|;
    assert IsFirstMatch(out.db.staff, user, id, n);
    assert out.db.restaurants[|db.restaurants|].id == id;
  }

  /** Updating keeps the store's numbering invariant. */
  lemma UpdatePreservesWf(db: Db, user: UserId, id: int, data: RawPatch, fault: DbFault)
    requires Wf(db)
    ensures Wf(UpdateRestaurant(db, user, id, data, fault).db)
  {
  }

  /** Every stored restaurant satisfies the input schema. */
  predicate RowsMeetSchema(db: Db) {
    forall i :: 0 <= i < |db.restaurants| ==> MeetsSchema(db.restaurants[i])
  }

  /** Creating a restaurant stores only a row the schema accepted. */
  lemma CreatePreservesSchema(db: Db, user: UserId, data: RawRestaurant, fault: DbFault)
    requires RowsMeetSchema(db)
    ensures RowsMeetSchema(CreateRestaurant(db, user, data, fault).db)
  {
    var out := CreateRestaurant(db, user, data, fault);
    if out.result.Ok? {
      var n := |db.restaurants|;
      SchemaRoundTrip(data, out.db.restaurants[n]);
    }
  }

  /** A patch the partial schema accepted, applied to a row meeting the
      schema, leaves a row meeting the schema. */
  lemma PatchKeepsSchema(row: RestaurantRow, data: RawPatch)
    requires MeetsSchema(row)
    requires ValidatePatch(data).Some?
    ensures MeetsSchema(ApplyPatch(row, ValidatePatch(data).value))
  {
    ValidateWeekExact(data.openingHours, row.openingHours);
  }

  /** Updating a restaurant keeps every stored row within the schema. */
  lemma UpdatePreservesSchema(db: Db, user: UserId, id: int, data: RawPatch, fault: DbFault)
    requires RowsMeetSchema(db)
    ensures RowsMeetSchema(UpdateRestaurant(db, user, id, data, fault).db)
  {
    var out := UpdateRestaurant(db, user, id, data, fault);
    if out.result.Ok? {
      forall i | 0 <= i < |db.restaurants| ensures MeetsSchema(out.db.restaurants[i]) {
        if db.restaurants[i].id == id {
          PatchKeepsSchema(db.restaurants[i], data);
        }
      }
    }
  }

  /** One entry of `getRestaurants`: the restaurant with the caller's membership. */
  datatype Listing = Listing(restaurant: RestaurantRow, role: Role, staffId: int, activated: bool)

  /** The inner join of restaurants with the caller's memberships, in
      membership order. */
  function Joined(restaurants: seq<RestaurantRow>, staff: seq<StaffRow>, user: UserId): (r: seq<Listing>)
    ensures forall l :: l in r ==>
      && l.restaurant in restaurants
      && StaffRow(l.staffId, l.restaurant.id, user, l.role, l.activated) in staff
    ensures forall s, row :: s in staff && row in restaurants && s.userId == user && row.id == s.restaurantId ==>
      Listing(row, s.role, s.id, s.activated) in r
  {
    if staff == [] then []
    else
      var s := staff[0];
      var here := if s.userId == user then ListingsFor(restaurants, s) else [];
      here + Joined(restaurants, staff[1..], user)
  }

  function ListingsFor(restaurants: seq<RestaurantRow>, s: StaffRow): (r: seq<Listing>)
    ensures forall l :: l in r ==>
      l.restaurant in restaurants && l.restaurant.id == s.restaurantId &&
      l.role == s.role && l.staffId == s.id && l.activated == s.activated
    ensures forall row :: row in restaurants && row.id == s.restaurantId ==>
      Listing(row, s.role, s.id, s.activated) in r
  {
    if restaurants == [] then []
    else
      var rest := ListingsFor(restaurants[1..], s);
      if restaurants[0].id == s.restaurantId then [Listing(restaurants[0], s.role, s.id, s.activated)] + rest
      else rest
  }

  /** Lexicographic order on names, by code point. */
  predicate NameLe(a: string, b: string) {
    a == [] || (b != [] && (a[0] < b[0] || (a[0] == b[0] && NameLe(a[1..], b[1..]))))
  }

  lemma {:induction false} NameLeTotal(a: string, b: string)
    ensures NameLe(a, b) || NameLe(b, a)
  {
    if a != [] && b != [] && a[0] == b[0] {
      NameLeTotal(a[1..], b[1..]);
    }
  }

  predicate SortedByName(s: seq<Listing>) {
    forall i :: 0 < i < |s| ==> NameLe(s[i - 1].restaurant.name, s[i].restaurant.name)
  }

  function InsertByName(x: Listing, s: seq<Listing>): (r: seq<Listing>)
    requires SortedByName(s)
    ensures SortedByName(r)
    ensures multiset(r) == multiset(s) + multiset{x}
    ensures r[0] == x || (s != [] && r[0] == s[0])
  {
    if s == [] then [x]
    else if NameLe(x.restaurant.name, s[0].restaurant.name) then [x] + s
    else
      var rest := InsertByName(x, s[1..]);
      NameLeTotal(x.restaurant.name, s[0].restaurant.name);
      assert s == [s[0]] + s[1..];
      [s[0]] + rest
  }

  /** `.orderBy(restaurants.name)`, stably. */
  function SortByName(s: seq<Listing>): (r: seq<Listing>)
    ensures SortedByName(r)
    ensures multiset(r) == multiset(s)
  {
    if s == [] then []
    else
      assert s == [s[0]] + s[1..];
      InsertByName(s[0], SortByName(s[1..]))
  }

  /** `getRestaurants`: one entry per membership of the caller, activated
      or not, ordered by restaurant name. Its catch clause reclassifies
      every failure. */
  function GetRestaurants(db: Db, user: UserId, fault: DbFault): (r: Result<seq<Listing>>)
    ensures r.Ok? <==> !FailsAtStep(fault, 0)
    ensures r.Err? ==> r.error == TrpcError(InternalServerError, "Failed to fetch restaurants")
    ensures r.Ok? ==> SortedByName(r.value)
    ensures r.Ok? ==> multiset(r.value) == multiset(Joined(db.restaurants, db.staff, user))
    ensures r.Ok? ==> forall l :: l in r.value ==>
      && l.restaurant in db.restaurants
      && StaffRow(l.staffId, l.restaurant.id, user, l.role, l.activated) in db.staff
    ensures r.Ok? ==> forall s, row :: s in db.staff && row in db.restaurants && s.userId == user && row.id == s.restaurantId ==>
      Listing(row, s.role, s.id, s.activated) in r.value
  {
    if FailsAtStep(fault, 0) then Err(TrpcError(InternalServerError, "Failed to fetch restaurants"))
    else
      var joined := Joined(db.restaurants, db.staff, user);
      var sorted := SortByName(joined);
      assert forall l :: l in sorted <==> l in joined by {
        forall l ensures l in sorted <==> l in joined {
          assert l in sorted <==> l in multiset(sorted);
          assert l in joined <==> l in multiset(joined);
        }
      }
      Ok(sorted)
  }
}

=== FILE: seqs.dfy ===
/** Sequence operations the components share: removing every occurrence of
    a value (`filter(x => x !== v)`), removing one position the way
    `Array.prototype.splice(index, 1)` does, and distinctness. */
module Seqs {

  predicate Distinct<T(==)>(s: seq<T>) {
    forall i, j :: 0 <= i < j < |s| ==> s[i] != s[j]
  }

  /** `s.filter(x => x !== v)`. */
  function RemoveAll<T(==)>(s: seq<T>, v: T): (r: seq<T>)
    ensures v !in r
    ensures |r| <= |s|
    ensures v !in s ==> r == s
  {
    if s == [] then []
    else
      assert s == [s[0]] + s[1..];
      if s[0] == v then RemoveAll(s[1..], v)
      else [s[0]] + RemoveAll(s[1..], v)
  }

  /** Every occurrence of `v` goes, every other entry keeps its
      multiplicity. */
  lemma {:induction false} RemoveAllMultiset<T>(s: seq<T>, v: T)
    ensures multiset(RemoveAll(s, v)) == multiset(s)[v := 0]
  {
    if s != [] {
      RemoveAllMultiset(s[1..], v);
      assert s == [s[0]] + s[1..];
    }
  }

  /** What `RemoveAll` keeps, as membership. */
  lemma {:induction false} RemoveAllMembers<T>(s: seq<T>, v: T, x: T)
    ensures x in RemoveAll(s, v) <==> x in s && x != v
  {
    if s != [] {
      RemoveAllMembers(s[1..], v, x);
      assert s == [s[0]] + s[1..];
    }
  }

  /** Removing keeps a duplicate-free list duplicate-free. */
  lemma {:induction false} RemoveAllDistinct<T>(s: seq<T>, v: T)
    requires Distinct(s)
    ensures Distinct(RemoveAll(s, v))
  {
    if s != [] {
      var rest := RemoveAll(s[1..], v);
      RemoveAllDistinct(s[1..], v);
      if s[0] != v {
        RemoveAllMembers(s[1..], v, s[0]);
        assert s[0] !in s[1..];
        assert RemoveAll(s, v) == [s[0]] + rest;
      }
    }
  }

  /** Removing distributes over concatenation, so the kept entries stay in
      their original order. */
  lemma {:induction false} RemoveAllAppend<T>(a: seq<T>, b: seq<T>, v: T)
    ensures RemoveAll(a + b, v) == RemoveAll(a, v) + RemoveAll(b, v)
  {
    if a == [] {
      assert a + b == b;
    } else {
      assert (a + b)[0] == a[0];
      assert (a + b)[1..] == a[1..] + b;
      RemoveAllAppend(a[1..], b, v);
    }
  }

  /** In a list where `v` occurs once, removing it leaves exactly the
      entries before and after it, in order. */
  lemma {:induction false} RemoveAllSingle<T>(a: seq<T>, v: T, b: seq<T>)
    requires v !in a && v !in b
    ensures RemoveAll(a + [v] + b, v) == a + b
  {
    var s := a + [v] + b;
    if a == [] {
      assert s[0] == v && s[1..] == b;
    } else {
      assert s[0] == a[0] && s[1..] == a[1..] + [v] + b;
      RemoveAllSingle(a[1..], v, b);
      assert a + b == [a[0]] + (a[1..] + b);
    }
  }

  /** A list is the entries before position i, the entry at i, and the
      entries after it. */
  lemma SplitAround<T>(s: seq<T>, i: int)
    requires 0 <= i < |s|
    ensures s == s[..i] + ([s[i]] + s[i + 1..])
  {
    assert s[i..] == [s[i]] + s[i + 1..];
    assert s == s[..i] + s[i..];
  }

  /** Where `splice(index, 1)` starts: a negative index counts from the end
      and is clamped at 0; an index past the end removes nothing. */
  function SpliceStart(len: nat, index: int): (k: nat)
    ensures k <= len
  {
    if index < 0 then (if len + index < 0 then 0 else len + index)
    else if index > len then len
    else index
  }

  /** `copy.splice(index, 1)` on a copy of `s`. */
  function RemoveAt<T>(s: seq<T>, index: int): (r: seq<T>)
    ensures 0 <= index < |s| ==> |r| == |s| - 1 && r == s[..index] + s[index + 1..]
    ensures index >= |s| ==> r == s
    ensures -|s| <= index < 0 ==> r == s[..|s| + index] + s[|s| + index + 1..]
    ensures index < -|s| && s != [] ==> r == s[1..]
  {
    var k := SpliceStart(|s|, index);
    if k == |s| then s else s[..k] + s[k + 1..]
  }
}

=== FILE: sidebar.dfy ===
/** The restaurant dashboard's navigation sidebar: three groups of links
    under `/dashboard/<id>`, each link listing the roles that see it, and the
    highlight on the link whose address is the current path. */
module Sidebar {
  import opened Store
  import Text

  datatype NavItem = NavItem(name: string, href: string, roles: seq<Role>)

  datatype NavGroup = NavGroup(category: string, items: seq<NavItem>)

  const StaffRoles: seq<Role> := [Owner, Manager, Server]

  function BasePath(restaurantId: nat): string {
    "/dashboard/" + Text.NatToString(restaurantId)
  }

  /** The sub-paths of the five links, in the order they are listed. */
  const Suffixes: seq<string> := ["", "/orders/new", "/orders/view", "/menu", "/staff"]

  /** `navigationItems` for restaurant `restaurantId`: five links under
      the restaurant's base path, all for owners, managers and servers. */
  function NavigationItems(restaurantId: nat): (r: seq<NavGroup>)
    ensures |r| == 3
    ensures r[0].category == "General" && r[1].category == "Operations" && r[2].category == "Management"
    ensures |Links(r)| == 5
    ensures forall k :: 0 <= k < 5 ==>
      Links(r)[k].href == BasePath(restaurantId) + Suffixes[k] && Links(r)[k].roles == StaffRoles
  {
    var base := BasePath(restaurantId);
    var g := [ NavGroup("General", [NavItem("Dashboard", base + Suffixes[0], StaffRoles)]),
      NavGroup("Operations", [NavItem("Place Order", base + Suffixes[1], StaffRoles),
                              NavItem("View Orders", base + Suffixes[2], StaffRoles)]),
      NavGroup("Management", [NavItem("Menu Editor", base + Suffixes[3], StaffRoles),
                              NavItem("Staff", base + Suffixes[4], StaffRoles)]) ];
    assert Links(g[3..]) == [];
    assert Links(g[2..]) == g[2].items;
    assert Links(g[1..]) == g[1].items + g[2].items;
    assert Links(g) == g[0].items + g[1].items + g[2].items;
    g
  }

  /** The links of all groups, in display order. */
  function Links(groups: seq<NavGroup>): seq<NavItem> {
    if groups == [] then [] else groups[0].items + Links(groups[1..])
  }

  /** `items.filter(item => item.roles.includes(role))`. */
  function VisibleItems(items: seq<NavItem>, role: Role): (r: seq<NavItem>)
    ensures forall it :: it in r <==> it in items && role in it.roles
    ensures |r| <= |items|
  {
    if items == [] then []
    else if role in items[0].roles then [items[0]] + VisibleItems(items[1..], role)
    else VisibleItems(items[1..], role)
  }

  /** The filter keeps the links it shows in their listed order. */
  lemma {:induction false} VisibleItemsAppend(a: seq<NavItem>, b: seq<NavItem>, role: Role)
    ensures VisibleItems(a + b, role) == VisibleItems(a, role) + VisibleItems(b, role)
  {
    if a == [] {
      assert a + b == b;
    } else {
      assert (a + b)[0] == a[0];
      assert (a + b)[1..] == a[1..] + b;
      VisibleItemsAppend(a[1..], b, role);
    }
  }

  /** The rendered sidebar: every group and its heading stay, each group
      showing only the links its role may see. */
  function VisibleGroups(groups: seq<NavGroup>, role: Role): (r: seq<NavGroup>)
    ensures |r| == |groups|
    ensures forall i :: 0 <= i < |groups| ==>
      r[i].category == groups[i].category && r[i].items == VisibleItems(groups[i].items, role)
  {
    seq(|groups|, i requires 0 <= i < |groups| =>
      NavGroup(groups[i].category, VisibleItems(groups[i].items, role)))
  }

  lemma {:induction false} VisibleItemsOfStaffLinks(items: seq<NavItem>, role: Role)
    requires forall k :: 0 <= k < |items| ==> items[k].roles == StaffRoles
    requires role != Kitchen
    ensures VisibleItems(items, role) == items
  {
    if items != [] {
      assert role in StaffRoles by {
        match role
        case Owner => assert StaffRoles[0] == Owner;
        case Manager => assert StaffRoles[1] == Manager;
        case Server => assert StaffRoles[2] == Server;
      }
      VisibleItemsOfStaffLinks(items[1..], role);
    }
  }

  /** Owners, managers and servers see every link. */
  lemma StaffSeeEveryLink(restaurantId: nat, role: Role)
    requires role != Kitchen
    ensures VisibleGroups(NavigationItems(restaurantId), role) == NavigationItems(restaurantId)
  {
    var g := NavigationItems(restaurantId);
    forall i | 0 <= i < 3 ensures VisibleItems(g[i].items, role) == g[i].items {
      VisibleItemsOfStaffLinks(g[i].items, role);
    }
  }

  /** Kitchen staff see the group headings and no link at all. */
  lemma KitchenSeesNoLink(restaurantId: nat)
    ensures forall g :: g in VisibleGroups(NavigationItems(restaurantId), Kitchen) ==> g.items == []
  {
    var g := NavigationItems(restaurantId);
    assert Kitchen !in StaffRoles;
    forall i | 0 <= i < 3 ensures VisibleItems(g[i].items, Kitchen) == [] {
      NoneVisible(g[i].items, Kitchen);
    }
  }

  lemma {:induction false} NoneVisible(items: seq<NavItem>, role: Role)
    requires forall k :: 0 <= k < |items| ==> role !in items[k].roles
    ensures VisibleItems(items, role) == []
  {
    if items != [] {
      NoneVisible(items[1..], role);
    }
  }

  /** `isActive`: only an exact match of the path highlights a link; a
      path below the link's address (a prefix match) does not. */
  function IsActive(pathname: string, href: string): (r: bool)
    ensures r <==> |pathname| == |href| && forall i :: 0 <= i < |href| ==> pathname[i] == href[i]
    ensures |pathname| > |href| && pathname[..|href|] == href ==> !r
  {
    pathname == href
  }

  lemma SuffixesDistinct(i: int, j: int)
    requires 0 <= i < 5 && 0 <= j < 5 && Suffixes[i] == Suffixes[j]
    ensures i == j
  {
    assert Suffixes[1][8] == 'n' && Suffixes[2][8] == 'v';
  }

  /** The five links have five different addresses, so whatever the current
      path, at most one link is highlighted. */
  lemma AtMostOneActive(restaurantId: nat, pathname: string, i: int, j: int)
    requires 0 <= i < |Links(NavigationItems(restaurantId))|
    requires 0 <= j < |Links(NavigationItems(restaurantId))|
    requires IsActive(pathname, Links(NavigationItems(restaurantId))[i].href)
    requires IsActive(pathname, Links(NavigationItems(restaurantId))[j].href)
    ensures i == j
  {
    var base := BasePath(restaurantId);
    assert (base + Suffixes[i])[|base|..] == Suffixes[i];
    assert (base + Suffixes[j])[|base|..] == Suffixes[j];
    SuffixesDistinct(i, j);
  }

  /** The dashboard link is not highlighted on the pages below it. */
  lemma DashboardNotActiveOnSubpage(restaurantId: nat, k: int)
    requires 1 <= k < 5
    ensures !IsActive(BasePath(restaurantId) + Suffixes[k], BasePath(restaurantId) + Suffixes[0])
  {
    assert |Suffixes[k]| > 0;
  }
}

=== FILE: store.dfy ===
/** The rows the server reads and writes, as plain values. The relational
    store is a record of row sequences in storage order, together with the
    next value of each identity column. */
module Store {
  import opened Errors

  type UserId = string

  /** The `user_role` enum. */
  datatype Role = Owner | Manager | Server | Kitchen

  /** A staff membership: `userId` holds `role` in restaurant `restaurantId`. */
  datatype StaffRow = StaffRow(id: int, restaurantId: int, userId: UserId, role: Role, activated: bool)

  /** One opening range of a day; an empty list of ranges means closed. */
  datatype HourRange = HourRange(openHour: int, openMinute: int, closeHour: int, closeMinute: int)

  datatype Week = Week(
    monday: seq<HourRange>, tuesday: seq<HourRange>, wednesday: seq<HourRange>,
    thursday: seq<HourRange>, friday: seq<HourRange>, saturday: seq<HourRange>,
    sunday: seq<HourRange>)

  /** A restaurant; `kind` is the `type` column. */
  datatype RestaurantRow = RestaurantRow(
    id: int, name: string, kind: string, address: string, phone: string,
    email: string, taxRate: real, openingHours: Week, createdById: UserId)

  datatype Location = Table | ToGo

  datatype OrderRow = OrderRow(
    id: int, location: Location, tableNumber: Option<int>, phone: Option<string>,
    name: Option<string>, restaurantId: int, restaurantStaffId: int)

  datatype OrderItemRow = OrderItemRow(
    id: int, restaurantId: int, menuItemId: int, restaurantStaffId: int,
    orderId: int, specialInstructions: Option<string>)

  /** A row of the order-item-to-modifier join table. */
  datatype ModifierLink = ModifierLink(orderItemId: int, modifierId: int)

  datatype Db = Db(
    restaurants: seq<RestaurantRow>,
    staff: seq<StaffRow>,
    orders: seq<OrderRow>,
    orderItems: seq<OrderItemRow>,
    modifierLinks: seq<ModifierLink>,
    nextRestaurantId: int,
    nextStaffId: int,
    nextOrderId: int,
    nextOrderItemId: int)

  /** A procedure's answer together with the store it leaves behind. */
  datatype Outcome<+T> = Outcome(db: Db, result: Result<T>)
}

=== FILE: tag_list.dfy ===
/** The tag inputs of the menu-item form (ingredients and allergens): typed
    text is trimmed and appended unless empty or already listed, and a tag's
    remove button drops every entry equal to it. */
module TagList {
  import opened Seqs
  import Text

  /** The list of tags together with the text in the input box. */
  datatype TagInput = TagInput(tags: seq<string>, input: string)

  /** Add on Enter or on the button: on success the trimmed text is the new
      last tag and the box is cleared; otherwise nothing changes. */
  function AddTag(t: TagInput): (r: TagInput)
    ensures var v := Text.Trim(t.input);
      if v != "" && v !in t.tags then r == TagInput(t.tags + [v], "") else r == t
  {
    var v := Text.Trim(t.input);
    if v != "" && v !in t.tags then TagInput(t.tags + [v], "") else t
  }

  /** Remove: every entry equal to `tag` goes, the rest keep their order;
      the input box is untouched. */
  function RemoveTag(t: TagInput, tag: string): (r: TagInput)
    ensures tag !in r.tags
    ensures forall x :: x != tag ==> (x in r.tags <==> x in t.tags)
    ensures r.input == t.input
  {
    assert forall x :: x in RemoveAll(t.tags, tag) <==> x in t.tags && x != tag by {
      forall x ensures x in RemoveAll(t.tags, tag) <==> x in t.tags && x != tag {
        RemoveAllMembers(t.tags, tag, x);
      }
    }
    TagInput(RemoveAll(t.tags, tag), t.input)
  }

  /** What every list built only through the input holds: no duplicates,
      and every tag non-empty and already trimmed. */
  predicate WellFormed(tags: seq<string>) {
    && Distinct(tags)
    && forall i :: 0 <= i < |tags| ==> tags[i] != "" && Text.IsTrimmed(tags[i])
  }

  lemma AddKeepsWellFormed(t: TagInput)
    requires WellFormed(t.tags)
    ensures WellFormed(AddTag(t).tags)
  {
    var v := Text.Trim(t.input);
    if v != "" && v !in t.tags {
      var r := t.tags + [v];
      assert r[|t.tags|] == v;
      assert Distinct(r) by {
        forall i, j | 0 <= i < j < |r| ensures r[i] != r[j] {
          if j == |t.tags| {
            assert r[i] == t.tags[i];
          } else {
            assert r[i] == t.tags[i] && r[j] == t.tags[j];
          }
        }
      }
      forall i | 0 <= i < |r| ensures r[i] != "" && Text.IsTrimmed(r[i]) {
        if i < |t.tags| {
          assert r[i] == t.tags[i];
        }
      }
    }
  }

  lemma RemoveKeepsWellFormed(t: TagInput, tag: string)
    requires WellFormed(t.tags)
    ensures WellFormed(RemoveTag(t, tag).tags)
  {
    RemoveAllDistinct(t.tags, tag);
    var r := RemoveTag(t, tag).tags;
    forall i | 0 <= i < |r| ensures r[i] != "" && Text.IsTrimmed(r[i]) {
      RemoveAllMembers(t.tags, tag, r[i]);
      var j :| 0 <= j < |t.tags| && t.tags[j] == r[i];
    }
  }

  /** Adding a tag and then removing it gives back the list as it was. */
  lemma AddThenRemoveRestores(t: TagInput)
    requires Text.Trim(t.input) != "" && Text.Trim(t.input) !in t.tags
    ensures RemoveTag(AddTag(t), Text.Trim(t.input)).tags == t.tags
  {
    var v := Text.Trim(t.input);
    RemoveAllSingle(t.tags, v, []);
    assert t.tags + [v] + [] == t.tags + [v];
    assert t.tags + [] == t.tags;
  }

  /** Adding the same text twice in a row adds it once: the first add clears
      the box, and re-typing an existing tag changes nothing. */
  lemma AddRetypedIsNoOp(t: TagInput)
    requires Text.Trim(t.input) != "" && Text.Trim(t.input) !in t.tags
    ensures AddTag(AddTag(t).(input := t.input)) == AddTag(t).(input := t.input)
  {
    var v := Text.Trim(t.input);
    assert v in t.tags + [v];
  }
}

=== FILE: text.dfy ===
/** String helpers shared by the components: decimal digits, number
    rendering without padding, joining with a separator and the ECMAScript
    notion of white space used by `String.prototype.trim`. */
module Text {

  predicate IsDigit(c: char) {
    '0' <= c <= '9'
  }

  predicate AllDigits(s: string) {
    forall i :: 0 <= i < |s| ==> IsDigit(s[i])
  }

  /** `s` is exactly ten decimal digits: the regular expression `^[0-9]{10}$`. */
  predicate IsTenDigitPhone(s: string) {
    |s| == 10 && AllDigits(s)
  }

  /** A character outside the Basic Multilingual Plane: a JavaScript string
      holds it as a surrogate pair, two UTF-16 code units. */
  predicate IsAstral(c: char) {
    c as int >= 0x1_0000
  }

  /** `s.length` in JavaScript: the number of UTF-16 code units, which is
      what length limits on strings count. */
  function Utf16Length(s: string): (n: nat)
    ensures |s| <= n <= 2 * |s|
    ensures (forall i :: 0 <= i < |s| ==> !IsAstral(s[i])) ==> n == |s|
    ensures (forall i :: 0 <= i < |s| ==> IsAstral(s[i])) ==> n == 2 * |s|
  {
    if s == [] then 0 else (if IsAstral(s[0]) then 2 else 1) + Utf16Length(s[1..])
  }

  /** The digits of `s`, in order: `s.replace(/\D/g, "")`. */
  function KeepDigits(s: string): (r: string)
    ensures AllDigits(r)
    ensures |r| <= |s|
    ensures AllDigits(s) ==> r == s
  {
    if s == [] then []
    else if IsDigit(s[0]) then [s[0]] + KeepDigits(s[1..])
    else KeepDigits(s[1..])
  }

  lemma {:induction false} KeepDigitsAppend(a: string, b: string)
    ensures KeepDigits(a + b) == KeepDigits(a) + KeepDigits(b)
  {
    if a == [] {
      assert a + b == b;
    } else {
      assert (a + b)[1..] == a[1..] + b;
      KeepDigitsAppend(a[1..], b);
    }
  }

  function DigitChar(d: nat): (c: char)
    requires d < 10
    ensures IsDigit(c)
  {
    ['0', '1', '2', '3', '4', '5', '6', '7', '8', '9'][d]
  }

  lemma DigitCharInjective(d: nat, e: nat)
    requires d < 10 && e < 10
    ensures DigitChar(d) == DigitChar(e) ==> d == e
  {
  }

  /** Decimal rendering of a non-negative number, as JavaScript's template
      literals print an integer: no sign, no leading zeros. */
  function NatToString(n: nat): (r: string)
    ensures |r| >= 1
    ensures AllDigits(r)
    ensures (|r| == 1) <==> (n < 10)
  {
    if n < 10 then [DigitChar(n)]
    else NatToString(n / 10) + [DigitChar(n % 10)]
  }

  /** Numbers are printed without zero padding: only zero itself starts with '0'. */
  lemma {:induction false} NatToStringNoLeadingZero(n: nat)
    ensures NatToString(n)[0] == '0' <==> n == 0
  {
    if n >= 10 {
      NatToStringNoLeadingZero(n / 10);
      assert NatToString(n)[0] == NatToString(n / 10)[0];
    }
  }

  lemma {:induction false} NatToStringInjective(n: nat, m: nat)
    ensures NatToString(n) == NatToString(m) ==> n == m
  {
    var s, t := NatToString(n), NatToString(m);
    if s == t {
      if n < 10 {
        DigitCharInjective(n, m);
      } else {
        assert m >= 10;
        assert s[..|s| - 1] == NatToString(n / 10);
        assert t[..|t| - 1] == NatToString(m / 10);
        NatToStringInjective(n / 10, m / 10);
        assert s[|s| - 1] == DigitChar(n % 10);
        assert t[|t| - 1] == DigitChar(m % 10);
        DigitCharInjective(n % 10, m % 10);
      }
    }
  }

  /** The value of one decimal digit; the inverse of `DigitChar`. */
  function DigitValue(c: char): (d: nat)
    requires IsDigit(c)
    ensures d < 10
    ensures DigitChar(d) == c
  {
    (c as int - '0' as int) as nat
  }

  predicate AllZeros(s: string) {
    forall i :: 0 <= i < |s| ==> s[i] == '0'
  }

  /** `parseInt(s)` of a digit string, read most significant digit first. */
  function ParseDigits(s: string): (n: nat)
    requires AllDigits(s)
    ensures n == 0 <==> AllZeros(s)
    ensures s != [] ==> n % 10 == DigitValue(s[|s| - 1])
  {
    if s == [] then 0 else ParseDigits(s[..|s| - 1]) * 10 + DigitValue(s[|s| - 1])
  }

  /** Printing a number and parsing the print gives the number back:
      the digits `NatToString` writes spell n in decimal. */
  lemma {:induction false} NatToStringRoundTrip(n: nat)
    ensures ParseDigits(NatToString(n)) == n
  {
    if n >= 10 {
      var q, d, s := n / 10, n % 10, NatToString(n);
      NatToStringRoundTrip(q);
      assert s == NatToString(q) + [DigitChar(d)];
      assert s[..|s| - 1] == NatToString(q) && s[|s| - 1] == DigitChar(d);
      DigitCharInjective(DigitValue(DigitChar(d)), d);
      assert ParseDigits(s) == q * 10 + d;
    }
  }

  /** Appending digit d to the decimal number p gives p * 10 + d. */
  lemma AppendDigit(p: nat, d: nat)
    requires 1 <= p && d < 10
    ensures NatToString(p * 10 + d) == NatToString(p) + [DigitChar(d)]
  {
    var n := p * 10 + d;
    assert n / 10 == p && n % 10 == d;
  }

  /** One more digit after a string that round-trips keeps it round-tripping. */
  lemma ParseSnocRoundTrip(init: string, last: char)
    requires AllDigits(init) && IsDigit(last)
    requires ParseDigits(init) != 0 && NatToString(ParseDigits(init)) == init
    ensures NatToString(ParseDigits(init + [last])) == init + [last]
  {
    var s, p, d := init + [last], ParseDigits(init), DigitValue(last);
    assert s[..|s| - 1] == init && s[|s| - 1] == last;
    assert ParseDigits(s) == p * 10 + d;
    AppendDigit(p, d);
    assert NatToString(p) + [DigitChar(d)] == s;
  }

  /** Parsing a digit string without a leading zero and printing the value
      gives the string back. */
  lemma {:induction false} ParseDigitsRoundTrip(s: string)
    requires AllDigits(s) && s != []
    requires s[0] == '0' ==> |s| == 1
    ensures NatToString(ParseDigits(s)) == s
  {
    if |s| > 1 {
      var init, last := s[..|s| - 1], s[|s| - 1];
      assert init[0] == s[0];
      ParseDigitsRoundTrip(init);
      assert ParseDigits(init) != 0 by {
        assert init[0] != '0';
      }
      ParseSnocRoundTrip(init, last);
      assert s == init + [last];
    }
  }

  /** `parts.join(sep)`. */
  function Join(parts: seq<string>, sep: string): (r: string)
    ensures parts == [] ==> r == []
    ensures |parts| == 1 ==> r == parts[0]
  {
    if parts == [] then []
    else if |parts| == 1 then parts[0]
    else Join(parts[..|parts| - 1], sep) + sep + parts[|parts| - 1]
  }

  /** Joining one more part adds one separator and the part at the end. */
  lemma JoinSnoc(parts: seq<string>, last: string, sep: string)
    requires parts != []
    ensures Join(parts + [last], sep) == Join(parts, sep) + sep + last
  {
    assert (parts + [last])[..|parts|] == parts;
  }

  /** White space and line terminators as `String.prototype.trim` removes
      them (sections 12.2 and 12.3 of ECMA-262). */
  predicate IsWhiteSpace(c: char) {
    || '\t' <= c <= '\r'
    || c == ' ' || c == '\U{00A0}' || c == '\U{1680}'
    || '\U{2000}' <= c <= '\U{200A}'
    || c == '\U{2028}' || c == '\U{2029}' || c == '\U{202F}' || c == '\U{205F}'
    || c == '\U{3000}' || c == '\U{FEFF}'
  }

  /** How many characters of white space `s` starts with. */
  function LeadingSpace(s: string): (n: nat)
    ensures n <= |s|
  {
    if s != [] && IsWhiteSpace(s[0]) then 1 + LeadingSpace(s[1..]) else 0
  }

  /** How many characters of white space `s` ends with. */
  function TrailingSpace(s: string): (n: nat)
    ensures n <= |s|
  {
    if s != [] && IsWhiteSpace(s[|s| - 1]) then 1 + TrailingSpace(s[..|s| - 1]) else 0
  }

  lemma {:induction false} LeadingSpaceIsMaximal(s: string)
    ensures forall i :: 0 <= i < LeadingSpace(s) ==> IsWhiteSpace(s[i])
    ensures LeadingSpace(s) < |s| ==> !IsWhiteSpace(s[LeadingSpace(s)])
  {
    if s != [] && IsWhiteSpace(s[0]) {
      LeadingSpaceIsMaximal(s[1..]);
      forall i | 0 < i < LeadingSpace(s) ensures IsWhiteSpace(s[i]) {
        assert s[i] == s[1..][i - 1];
      }
      if LeadingSpace(s) < |s| {
        assert s[LeadingSpace(s)] == s[1..][LeadingSpace(s[1..])];
      }
    }
  }

  lemma {:induction false} TrailingSpaceIsMaximal(s: string)
    ensures forall i :: |s| - TrailingSpace(s) <= i < |s| ==> IsWhiteSpace(s[i])
    ensures TrailingSpace(s) < |s| ==> !IsWhiteSpace(s[|s| - TrailingSpace(s) - 1])
  {
    if s != [] && IsWhiteSpace(s[|s| - 1]) {
      var init := s[..|s| - 1];
      TrailingSpaceIsMaximal(init);
      forall i | |s| - TrailingSpace(s) <= i < |s| - 1 ensures IsWhiteSpace(s[i]) {
        assert s[i] == init[i];
      }
      if TrailingSpace(s) < |s| {
        assert s[|s| - TrailingSpace(s) - 1] == init[|init| - TrailingSpace(init) - 1];
      }
    }
  }

  predicate IsTrimmed(s: string) {
    s == [] || (!IsWhiteSpace(s[0]) && !IsWhiteSpace(s[|s| - 1]))
  }

  /** `s.trim()`: the infix of `s` left after dropping white space from
      both ends; what is dropped is white space and what is kept neither
      starts nor ends with it. */
  function Trim(s: string): (r: string)
    ensures IsTrimmed(r)
    ensures var k := LeadingSpace(s);
            && k + |r| <= |s| && r == s[k..k + |r|]
            && (forall i :: 0 <= i < k ==> IsWhiteSpace(s[i]))
            && (forall i :: k + |r| <= i < |s| ==> IsWhiteSpace(s[i]))
  {
    var t := s[LeadingSpace(s)..];
    TrimFacts(s, t);
    t[..|t| - TrailingSpace(t)]
  }

  lemma TrimFacts(s: string, t: string)
    requires t == s[LeadingSpace(s)..]
    ensures var k, r := LeadingSpace(s), t[..|t| - TrailingSpace(t)];
            && IsTrimmed(r)
            && k + |r| <= |s| && r == s[k..k + |r|]
            && (forall i :: 0 <= i < k ==> IsWhiteSpace(s[i]))
            && (forall i :: k + |r| <= i < |s| ==> IsWhiteSpace(s[i]))
  {
    var k, r := LeadingSpace(s), t[..|t| - TrailingSpace(t)];
    LeadingSpaceIsMaximal(s);
    TrailingSpaceIsMaximal(t);
    forall i | k + |r| <= i < |s| ensures IsWhiteSpace(s[i]) {
      assert s[i] == t[i - k];
    }
    if r != [] {
      assert r[0] == s[k];
      assert r[|r| - 1] == t[|t| - TrailingSpace(t) - 1];
    }
  }

  /** Trimming twice is trimming once. */
  lemma TrimIdempotent(s: string)
    ensures IsTrimmed(Trim(s))
    ensures Trim(Trim(s)) == Trim(s)
  {
    TrimOfTrimmed(Trim(s));
  }

  lemma TrimOfTrimmed(s: string)
    requires IsTrimmed(s)
    ensures Trim(s) == s
  {
  }
}

=== FILE: validation.dfy ===
/** The restaurant input schemas as validator functions: each answers the
    input with its defaults filled in, or `None` when the schema rejects it
    (the procedure then fails with BAD_REQUEST before its body runs). */
module Validation {
  import opened Errors
  import opened Store
  import Text

  /** Every field in range; no order between opening and closing time. */
  predicate ValidHourRange(r: HourRange) {
    && 0 <= r.openHour <= 23
    && 0 <= r.openMinute <= 59
    && 0 <= r.closeHour <= 23
    && 0 <= r.closeMinute <= 59
  }

  /** `HoursSchema` for one day: a list of ranges, `[]` when absent. */
  function ValidateDay(day: Option<seq<HourRange>>): (r: Option<seq<HourRange>>)
    ensures r.Some? <==> (day.None? || forall i :: 0 <= i < |day.value| ==> ValidHourRange(day.value[i]))
    ensures day.None? ==> r == Some([])
    ensures day.Some? && r.Some? ==> r.value == day.value
  {
    match day
    case None => Some([])
    case Some(ranges) =>
      if forall i :: 0 <= i < |ranges| ==> ValidHourRange(ranges[i]) then Some(ranges) else None
  }

  /** A range that closes before it opens (past midnight) is accepted. */
  lemma OvernightRangeAccepted()
    ensures ValidateDay(Some([HourRange(22, 0, 2, 30)])) == Some([HourRange(22, 0, 2, 30)])
  {
  }

  /** The `openingHours` object as submitted: each day may be missing. */
  datatype RawWeek = RawWeek(
    monday: Option<seq<HourRange>>, tuesday: Option<seq<HourRange>>,
    wednesday: Option<seq<HourRange>>, thursday: Option<seq<HourRange>>,
    friday: Option<seq<HourRange>>, saturday: Option<seq<HourRange>>,
    sunday: Option<seq<HourRange>>)

  /** Day `d` of the week, Monday being 0. */
  function Day(w: Week, d: nat): seq<HourRange>
    requires d < 7
  {
    [w.monday, w.tuesday, w.wednesday, w.thursday, w.friday, w.saturday, w.sunday][d]
  }

  function RawDay(w: RawWeek, d: nat): Option<seq<HourRange>>
    requires d < 7
  {
    [w.monday, w.tuesday, w.wednesday, w.thursday, w.friday, w.saturday, w.sunday][d]
  }

  const ClosedWeek: Week := Week([], [], [], [], [], [], [])

  /** The `openingHours` field: every day validated and defaulted; a missing
      object is the week closed on all seven days. */
  function ValidateWeek(w: Option<RawWeek>): (r: Option<Week>)
    ensures w.None? ==> r == Some(ClosedWeek)
    ensures w.Some? ==> (r.Some? <==> forall d :: 0 <= d < 7 ==> ValidateDay(RawDay(w.value, d)).Some?)
    ensures r.Some? && w.Some? ==> forall d :: 0 <= d < 7 ==> Some(Day(r.value, d)) == ValidateDay(RawDay(w.value, d))
  {
    match w
    case None => Some(ClosedWeek)
    case Some(raw) =>
      var mo, tu, we, th := ValidateDay(raw.monday), ValidateDay(raw.tuesday), ValidateDay(raw.wednesday), ValidateDay(raw.thursday);
      var fr, sa, su := ValidateDay(raw.friday), ValidateDay(raw.saturday), ValidateDay(raw.sunday);
      if mo.Some? && tu.Some? && we.Some? && th.Some? && fr.Some? && sa.Some? && su.Some? then
        Some(Week(mo.value, tu.value, we.value, th.value, fr.value, sa.value, su.value))
      else
        assert exists d :: 0 <= d < 7 && ValidateDay(RawDay(raw, d)).None? by {
          if mo.None? { assert ValidateDay(RawDay(raw, 0)).None?; }
          else if tu.None? { assert ValidateDay(RawDay(raw, 1)).None?; }
          else if we.None? { assert ValidateDay(RawDay(raw, 2)).None?; }
          else if th.None? { assert ValidateDay(RawDay(raw, 3)).None?; }
          else if fr.None? { assert ValidateDay(RawDay(raw, 4)).None?; }
          else if sa.None? { assert ValidateDay(RawDay(raw, 5)).None?; }
          else { assert ValidateDay(RawDay(raw, 6)).None?; }
        }
        None
  }

  /** A restaurant as submitted to `createRestaurant`. */
  datatype RawRestaurant = RawRestaurant(
    name: string, kind: string, address: string, phone: string, email: string,
    taxRate: Option<real>, openingHours: Option<RawWeek>)

  /** A restaurant that passed `restaurantInputSchema`, defaults applied. */
  datatype RestaurantInput = RestaurantInput(
    name: string, kind: string, address: string, phone: string, email: string,
    taxRate: real, openingHours: Week)

  /** Length limits count UTF-16 code units, as JavaScript's `length` does. */
  predicate ValidName(s: string) { 1 <= Text.Utf16Length(s) <= 255 }
  predicate ValidKind(s: string) { 1 <= Text.Utf16Length(s) <= 100 }
  predicate ValidAddress(s: string) { |s| >= 1 }
  predicate ValidEmail(s: string) { 1 <= Text.Utf16Length(s) <= 255 }
  predicate ValidTaxRate(t: real) { t >= 0.0 }

  /** `restaurantInputSchema.parse`. */
  function ValidateRestaurant(raw: RawRestaurant): (r: Option<RestaurantInput>)
    ensures r.Some? <==>
      && ValidName(raw.name) && ValidKind(raw.kind) && ValidAddress(raw.address)
      && Text.IsTenDigitPhone(raw.phone) && ValidEmail(raw.email)
      && (raw.taxRate.None? || ValidTaxRate(raw.taxRate.value))
      && ValidateWeek(raw.openingHours).Some?
    ensures r.Some? ==>
      && r.value.name == raw.name && r.value.kind == raw.kind && r.value.address == raw.address
      && r.value.phone == raw.phone && r.value.email == raw.email
      && r.value.taxRate == (if raw.taxRate.None? then 0.0 else raw.taxRate.value)
      && Some(r.value.openingHours) == ValidateWeek(raw.openingHours)
  {
    var hours := ValidateWeek(raw.openingHours);
    var tax := match raw.taxRate case None => 0.0 case Some(t) => t;
    if && ValidName(raw.name) && ValidKind(raw.kind) && ValidAddress(raw.address)
       && Text.IsTenDigitPhone(raw.phone) && ValidEmail(raw.email)
       && ValidTaxRate(tax) && hours.Some?
    then Some(RestaurantInput(raw.name, raw.kind, raw.address, raw.phone, raw.email, tax, hours.value))
    else None
  }

  /** Every range of every day in range. */
  predicate ValidWeek(w: Week) {
    forall d :: 0 <= d < 7 ==> forall i :: 0 <= i < |Day(w, d)| ==> ValidHourRange(Day(w, d)[i])
  }

  /** A stored restaurant row whose fields all satisfy `restaurantInputSchema`. */
  predicate MeetsSchema(row: RestaurantRow) {
    && ValidName(row.name) && ValidKind(row.kind) && ValidAddress(row.address)
    && Text.IsTenDigitPhone(row.phone) && ValidEmail(row.email)
    && ValidTaxRate(row.taxRate) && ValidWeek(row.openingHours)
  }

  /** The week as it would be submitted again: every day present. */
  function Resubmitted(w: Week): RawWeek {
    RawWeek(Some(w.monday), Some(w.tuesday), Some(w.wednesday), Some(w.thursday),
            Some(w.friday), Some(w.saturday), Some(w.sunday))
  }

  /** A validated week is valid, and a valid week validates to itself. */
  lemma ValidateWeekExact(w: Option<RawWeek>, v: Week)
    ensures ValidateWeek(w).Some? ==> ValidWeek(ValidateWeek(w).value)
    ensures ValidWeek(v) ==> ValidateWeek(Some(Resubmitted(v))) == Some(v)
  {
    if ValidateWeek(w).Some? {
      var r := ValidateWeek(w).value;
      forall d | 0 <= d < 7
        ensures forall i :: 0 <= i < |Day(r, d)| ==> ValidHourRange(Day(r, d)[i])
      {
        if w.Some? {
          assert Some(Day(r, d)) == ValidateDay(RawDay(w.value, d));
        }
      }
    }
    if ValidWeek(v) {
      var raw := Resubmitted(v);
      forall d | 0 <= d < 7 ensures ValidateDay(RawDay(raw, d)) == Some(Day(v, d)) {
        assert RawDay(raw, d) == Some(Day(v, d));
      }
      var r := ValidateWeek(Some(raw)).value;
      forall d | 0 <= d < 7 ensures Day(r, d) == Day(v, d) {
        assert Some(Day(r, d)) == ValidateDay(RawDay(raw, d));
      }
      assert r.monday == Day(r, 0) && r.tuesday == Day(r, 1) && r.wednesday == Day(r, 2);
      assert r.thursday == Day(r, 3) && r.friday == Day(r, 4) && r.saturday == Day(r, 5) && r.sunday == Day(r, 6);
    }
  }

  /** What `restaurantInputSchema` accepts is exactly what a stored row
      meeting the schema holds: validating an input yields such a row, and
      resubmitting such a row's fields validates to the same fields. */
  lemma SchemaRoundTrip(raw: RawRestaurant, row: RestaurantRow)
    ensures ValidateRestaurant(raw).Some? ==>
      var v := ValidateRestaurant(raw).value;
      MeetsSchema(RestaurantRow(row.id, v.name, v.kind, v.address, v.phone, v.email, v.taxRate, v.openingHours, row.createdById))
    ensures MeetsSchema(row) ==>
      ValidateRestaurant(RawRestaurant(row.name, row.kind, row.address, row.phone, row.email,
                                       Some(row.taxRate), Some(Resubmitted(row.openingHours))))
      == Some(RestaurantInput(row.name, row.kind, row.address, row.phone, row.email, row.taxRate, row.openingHours))
  {
    ValidateWeekExact(raw.openingHours, row.openingHours);
  }

  /** A name of 128 emoji is 128 characters but 256 code units: over the
      limit of 255. */
  lemma EmojiNameTooLong()
    ensures !ValidName(seq(128, _ => '\U{1F600}'))
  {
    var s := seq(128, _ => '\U{1F600}');
    assert forall i :: 0 <= i < |s| ==> Text.IsAstral(s[i]);
  }

  /** Within the Basic Multilingual Plane a code unit is a character. */
  lemma PlainNameLimit(s: string)
    requires forall i :: 0 <= i < |s| ==> !Text.IsAstral(s[i])
    ensures ValidName(s) <==> 1 <= |s| <= 255
  {
  }

  /** The partial data of `updateRestaurant`: any field may be absent. */
  datatype RawPatch = RawPatch(
    name: Option<string>, kind: Option<string>, address: Option<string>,
    phone: Option<string>, email: Option<string>, taxRate: Option<real>,
    openingHours: Option<RawWeek>)

  /** A patch that passed `restaurantInputSchema.partial()`. Absent fields
      stay absent: the defaults of the full schema are not applied. */
  datatype RestaurantPatch = RestaurantPatch(
    name: Option<string>, kind: Option<string>, address: Option<string>,
    phone: Option<string>, email: Option<string>, taxRate: Option<real>,
    openingHours: Option<Week>)

  predicate Supplied<T>(field: Option<T>, valid: T -> bool) {
    field.Some? ==> valid(field.value)
  }

  function ValidatePatch(raw: RawPatch): (r: Option<RestaurantPatch>)
    ensures r.Some? <==>
      && (raw.name.Some? ==> ValidName(raw.name.value))
      && (raw.kind.Some? ==> ValidKind(raw.kind.value))
      && (raw.address.Some? ==> ValidAddress(raw.address.value))
      && (raw.phone.Some? ==> Text.IsTenDigitPhone(raw.phone.value))
      && (raw.email.Some? ==> ValidEmail(raw.email.value))
      && (raw.taxRate.Some? ==> ValidTaxRate(raw.taxRate.value))
      && (raw.openingHours.Some? ==> ValidateWeek(raw.openingHours).Some?)
    ensures r.Some? ==>
      && r.value.name == raw.name && r.value.kind == raw.kind && r.value.address == raw.address
      && r.value.phone == raw.phone && r.value.email == raw.email && r.value.taxRate == raw.taxRate
      && (r.value.openingHours.None? <==> raw.openingHours.None?)
      && (raw.openingHours.Some? ==> r.value.openingHours == ValidateWeek(raw.openingHours))
  {
    if && Supplied(raw.name, ValidName) && Supplied(raw.kind, ValidKind)
       && Supplied(raw.address, ValidAddress) && Supplied(raw.phone, Text.IsTenDigitPhone)
       && Supplied(raw.email, ValidEmail) && Supplied(raw.taxRate, ValidTaxRate)
       && (raw.openingHours.Some? ==> ValidateWeek(raw.openingHours).Some?)
    then
      var hours := if raw.openingHours.None? then None else ValidateWeek(raw.openingHours);
      Some(RestaurantPatch(raw.name, raw.kind, raw.address, raw.phone, raw.email, raw.taxRate, hours))
    else None
  }
}
